=== FILE: README.md ===
# Bitmart websocket client and InLock REST client, modelled in Dafny

This project models two exchange adapters of a cryptocurrency-trading
library.

The first is the Bitmart streaming client (`python/ccxt/pro/bitmart.py`):

- `watch_*` calls subscribe to channels named `type/channel:marketId`.
- The private channel first logs in with a signed `login` frame.
- Every inbound frame passes an error gate first. An authentication error
  rejects the pending login and purges its registry entry. Any other error
  is swallowed.
- Frames that pass are routed by their control event or by the segments of
  their `table` to one handler: order book, ticker, trade, OHLCV or orders.
- Each handler updates its per-symbol store and resolves the key
  `table:marketId`.
- Order books are reset on every update before its levels are stored. The
  depth limit is read back from the channel name (`depth5` gives 5).
- Candle timestamps are snapped down to the start of their timeframe bucket.
  The timeframe is found by a reverse lookup in the fixed interval table.

The second is the InLock REST client (`js/inlock.js`):

- request signing: the query string for GET, a form-encoded body otherwise,
  and an HMAC over the final URL;
- balance parsing;
- the error mapping through the exact and broad exception tables.

Modules, in dependency order:

- `Wrappers`: `Option` and `Result`.
- `Text`: the string operations the code relies on. These are `split`,
  `find(...) >= 0`, `replace(pat, '')`, `int(...)` and `str(n)`, with
  `Split`/`Join` proved to round-trip.
- `Errors`: exception classes and the exact/broad classification.
- `Markets` and `Config`: the loaded market registry and the options the
  handlers read.
- `Connection`: the subscription registry, the `authenticated` future, the
  login handshake and the error gate.
- `Router`: `handle_message`.
- `Timeframes`: the interval table, `parse_timeframe` and bucket alignment.
- `OrderBooks`: the order-book handlers.
- `Handlers`: the trade, ticker, OHLCV and order handlers.
- `Watchers`: the `subscribe*` and `watch_*` entry points.
- `InLock`: the REST client.

An error frame whose class is not an authentication error is not raised to
anyone. `handle_error_message` (`python/ccxt/pro/bitmart.py:490-510`)
catches every exception its tables raise, acts only on an
`AuthenticationError`, and otherwise returns the frame, so `handle_message`
goes on to route it (`Connection.ErrorGate`, `Router.OtherErrorsAreSwallowed`).

`safe_string` reads an empty string as missing. So an empty `table` sends
the frame by its event, and an empty second segment of a table raises like
a missing one. A record whose `symbol` is missing or empty makes
`table + ':' + marketId` raise `TypeError` part-way through a frame. The records before
it have then been stored and their keys resolved.

## Model

| member | source | states |
|---|---|---|
| Text.Split | python/ccxt/pro/bitmart.py:327 | `str.split` on one separator: at least one part, no part holds the separator, and joining the parts back gives the input |
| Text.SplitJoin | python/ccxt/pro/bitmart.py:556 | splitting a join of separator-free parts returns exactly those parts, so a table's segments are recovered |
| Text.RemoveAll | python/ccxt/pro/bitmart.py:329 | `replace(pat, '')` never lengthens the string, leaves it unchanged when the pattern does not occur, and removes at least one occurrence when it does |
| Text.RemoveAllLeading | python/ccxt/pro/bitmart.py:437 | removing the channel prefix from `prefix + v` leaves `v` when `v` does not contain the prefix |
| Text.SafeString | python/ccxt/pro/bitmart.py:540 | `safe_string` gives a value exactly when the field is present and non-empty, and then gives the field itself |
| Text.SafeAt | python/ccxt/pro/bitmart.py:557 | `safe_string(parts, i)` gives a segment exactly when it exists and is non-empty |
| Text.ContainsIffOccurs | python/ccxt/pro/bitmart.py:567 | `find(pat) >= 0` holds exactly when the pattern occurs at some index |
| Text.NatToString | python/ccxt/pro/bitmart.py:461 | `str(n)` of a natural number is a non-empty string of decimal digits with no leading zero |
| Text.ParseInt | python/ccxt/pro/bitmart.py:438 | `int(s)` succeeds exactly on one or more decimal digits, optionally after one `+` or `-`, and gives their decimal value with that sign; every other string, the empty one included, raises |
| Text.ParseIntOfNatToString | python/ccxt/pro/bitmart.py:438 | `int(str(n)) == n` for every natural number |
| Text.NatToStringOfDigitsValue | python/ccxt/pro/bitmart.py:438 | the other direction: a non-empty digit string without a leading zero is `str` of its own value |
| Errors.BroadMatch | python/ccxt/pro/bitmart.py:502 | the broad table gives nothing exactly when no key occurs in the message, else the class of the first key that occurs, in table order |
| Errors.ClassifyFrame | python/ccxt/pro/bitmart.py:495-503 | the exact table is checked on the error code first; only an unmatched code with a message falls back to the broad table |
| Markets.MarketOf | python/ccxt/pro/bitmart.py:65 | `market(symbol)` succeeds exactly for loaded symbols and raises `BadSymbol` otherwise |
| Markets.SymbolRoundTrip | python/ccxt/pro/bitmart.py:172-173 | in a consistent registry, going from an exchange id to its symbol and back with `market` yields the same id |
| Connection.Watch | python/ccxt/pro/bitmart.py:72 | a subscribe hash is registered and its request written only the first time; no other registry entry and not the auth future change |
| Connection.WatchIdempotent | python/ccxt/pro/bitmart.py:84 | watching the same hash twice equals watching it once |
| Connection.AuthPayloadSplits | python/ccxt/pro/bitmart.py:461-464 | the signed payload splits on `#` back into timestamp, uid and `bitmart.WebSocket` |
| Connection.Authenticate | python/ccxt/pro/bitmart.py:453-475 | a login is spawned exactly when no `login` entry exists; it carries the API key and decimal timestamp and is signed over the payload with the secret; otherwise the client is untouched |
| Connection.AuthenticateOnce | python/ccxt/pro/bitmart.py:458-459 | once `login` is registered, a further `authenticate` changes nothing, and at most one login frame was added |
| Connection.ConcurrentAuthenticateSendsOneLogin | python/ccxt/pro/bitmart.py:458-474 | two `authenticate` calls before either spawned watch runs both spawn one, yet exactly one login frame is written |
| Connection.ResolveAuth | python/ccxt/pro/bitmart.py:483-488 | a login acknowledgement resolves a pending `authenticated` future and changes nothing else |
| Connection.RejectAuth | python/ccxt/pro/bitmart.py:505 | a pending `authenticated` future becomes rejected with the error; a settled one or none is left as it was |
| Connection.ErrorGate | python/ccxt/pro/bitmart.py:490-510 | a frame stops exactly when it has an error code classified as an authentication error; it then rejects the pending future and purges `login`; every other frame passes with the client unchanged |
| Connection.AuthErrorAllowsRetry | python/ccxt/pro/bitmart.py:504-509 | after an authentication error the next `authenticate` writes a fresh login and waits on a fresh pending future |
| Connection.LoginRejectRetry | python/ccxt/pro/bitmart.py:453-509 | login, rejection, retry: the rejection is observed and exactly two login frames are written in total |
| Router.Classify | python/ccxt/pro/bitmart.py:540-552 | with a missing or empty table only `login` and `subscribe` dispatch, to the authenticate and the subscription-status handlers; such a frame never faults |
| Router.SegmentsRouteCases | python/ccxt/pro/bitmart.py:555-575 | segments fault exactly when the second is missing or empty; the orders handler is chosen exactly when the third is `order`; the OHLCV handler exactly when the second contains `kline` and the third is not `order`; otherwise the channel table decides, or nothing |
| Router.ClassifyTableRoutes | python/ccxt/pro/bitmart.py:553-575 | the same four cases for a frame with a non-empty table, stated on the table's `/`-segments |
| Router.HandleMessage | python/ccxt/pro/bitmart.py:512-514 | a frame the gate stops is not routed; a passing frame gets its classification; a login acknowledgement resolves `authenticated` on the gated client, and any other frame leaves the gated client as it is |
| Router.PublicChannelRoute | python/ccxt/pro/bitmart.py:556-568 | a two-segment table faults on an empty second segment, and otherwise routes by it, with `kline` anywhere in it taking precedence |
| Router.ChannelKindsPlain | python/ccxt/pro/bitmart.py:558-563 | no channel kind of the fixed table holds a `/` or contains `kline` |
| Router.NamedChannelRoutes | python/ccxt/pro/bitmart.py:558-566 | every `t/name` with `name` in the fixed channel table reaches that table's handler |
| Router.TradeAndTickerTablesRoute | python/ccxt/pro/bitmart.py:562-563 | `t/trade` and `t/ticker` reach the trade and ticker handlers |
| Router.DepthTablesRoute | python/ccxt/pro/bitmart.py:558-561 | `t/depth`, `t/depth5` and `t/depth400` reach the order-book handler |
| Router.KlineTablesRoute | python/ccxt/pro/bitmart.py:567-568 | every `t/kline<interval>` reaches the OHLCV handler |
| Router.PrivateOrderTableRoutes | python/ccxt/pro/bitmart.py:569-571 | `t/user/order` reaches the orders handler |
| Router.StoppedFramesAreNotDispatched | python/ccxt/pro/bitmart.py:513-514 | an authentication-class error frame is never dispatched and leaves no `login` entry |
| Router.OtherErrorsAreSwallowed | python/ccxt/pro/bitmart.py:496-510 | an error frame of any other class passes through with the client unchanged |
| Timeframes.IntervalsInjective | python/ccxt/pro/bitmart.py:42-56 | the interval table has distinct timeframes and distinct exchange intervals, so the reverse lookup is well defined |
| Timeframes.FindTimeframe | python/ccxt/pro/bitmart.py:332 | the reverse lookup fails exactly when no entry has the interval, and a found timeframe maps forward to that interval |
| Timeframes.FindTimeframeIff | python/ccxt/pro/bitmart.py:332 | the reverse lookup finds `tf` for an interval exactly when the forward lookup maps `tf` to it |
| Timeframes.KlineChannel | python/ccxt/pro/bitmart.py:298-300 | the channel `kline + interval` exists exactly for known timeframes; an unknown one raises `TypeError` |
| Timeframes.TableTimeframe | python/ccxt/pro/bitmart.py:327-332 | a missing or empty second segment raises `AttributeError` and nothing else does; otherwise, with `kline` removed from that segment, `TypeError` is raised exactly when no timeframe has the rest as its interval, and a timeframe read back maps forward to exactly that interval |
| Timeframes.KlineTableRoundTrip | python/ccxt/pro/bitmart.py:300 | the table a kline subscription produces is read back as the subscribed timeframe |
| Timeframes.TimeframeSeconds | python/ccxt/pro/bitmart.py:333 | `parse_timeframe` succeeds only on an amount followed by a known unit letter, and fails with `ValueError` or `NotSupported` |
| Timeframes.TimeframeSecondsOfParts | python/ccxt/pro/bitmart.py:333 | `str(n) + unit` lasts `n` times the unit's length in seconds, and an unknown unit raises `NotSupported` |
| Timeframes.IntervalDurationsPositive | python/ccxt/pro/bitmart.py:333-334 | every timeframe of the table has a positive duration, so the bucket length is never zero |
| Timeframes.DurationPositiveAt | python/ccxt/pro/bitmart.py:333-334 | the same, for the entry at each index of the table |
| Timeframes.OneMinuteIsSixtySeconds | python/ccxt/pro/bitmart.py:333 | `1m` is 60 seconds |
| Timeframes.AlignDown | python/ccxt/pro/bitmart.py:341 | `int(ts / d) * d` is a multiple of `d`; for a non-negative `ts` it is the start of the bucket holding `ts` (rounding toward zero for a negative one) |
| Timeframes.AlignDownUnique | python/ccxt/pro/bitmart.py:341 | for a non-negative timestamp, the bucket start is the only multiple of `d` within `d` below it |
| Timeframes.AlignDownIdempotent | python/ccxt/pro/bitmart.py:341 | snapping an already snapped timestamp changes nothing |
| OrderBooks.ApplyDeltas | python/ccxt/pro/bitmart.py:365-372 | storing a batch of levels keeps the invariant that no level holds a zero amount |
| OrderBooks.ApplyDeltasLevel | python/ccxt/pro/bitmart.py:370-372 | after a batch a price holds its last entry's amount, is absent when that amount is zero, and is unchanged when not mentioned |
| OrderBooks.BatchOnEmptySide | python/ccxt/pro/bitmart.py:397-398 | after a reset a side holds exactly the prices whose last entry is non-zero |
| OrderBooks.StoreZeroAbsentIsNoOp | python/ccxt/pro/bitmart.py:365-368 | a zero amount at a price not present changes nothing |
| OrderBooks.ApplyMessage | python/ccxt/pro/bitmart.py:374-405 | the book keeps its depth, takes the update's symbol and timestamp, applies the asks and the bids to their own sides, and keeps both sides free of zero levels |
| OrderBooks.DepthLimit | python/ccxt/pro/bitmart.py:434-438 | a missing or empty second segment raises `AttributeError` and nothing else does; otherwise, with `depth` removed from that segment, `ValueError` is raised exactly when `int()` fails on the rest, and the limit is the integer it gives; a limit is read only from a table holding `/` |
| OrderBooks.DepthLimitOfSuffix | python/ccxt/pro/bitmart.py:435-438 | `t/depth<n>` carries depth limit `n` |
| OrderBooks.BareDepthHasNoLimit | python/ccxt/pro/bitmart.py:437-438 | the routable bare `t/depth` table fails on `int('')` |
| OrderBooks.ApplyOne | python/ccxt/pro/bitmart.py:440-450 | one update creates the symbol's book with the limit if missing, and the book then holds only the update's levels, symbol and timestamp; other books are untouched and the key is `table:marketId` |
| OrderBooks.UpdateForgetsPreviousBook | python/ccxt/pro/bitmart.py:447 | the book after an update does not depend on the previous book beyond its depth limit |
| OrderBooks.ApplyUpdates | python/ccxt/pro/bitmart.py:439-450 | a frame resolves one `table:marketId` key per update, in order, and adds books exactly for the symbols it touches |
| OrderBooks.LastUpdateFor | python/ccxt/pro/bitmart.py:439-442 | the last update of a frame for a symbol exists exactly when the frame touches the symbol |
| OrderBooks.FrameLeavesLastUpdate | python/ccxt/pro/bitmart.py:439-450 | after a frame each touched symbol's book holds its last update's levels and timestamp, and untouched books are unchanged |
| OrderBooks.FrameKeepsUntouched | python/ccxt/pro/bitmart.py:439-446 | a symbol no update of the frame resolves to keeps its book, or stays without one |
| OrderBooks.FrameKeepsDepth | python/ccxt/pro/bitmart.py:443-447 | a book keeps the depth limit it was created with; a book created by the frame gets the frame's limit |
| OrderBooks.FrameHoldsLastUpdate | python/ccxt/pro/bitmart.py:447-448 | a touched symbol's book holds its last update's levels, symbol and timestamp |
| OrderBooks.HandleOrderBook | python/ccxt/pro/bitmart.py:407-451 | an unreadable depth limit fails the frame with its error before any update, even when it holds none; otherwise the frame raises `TypeError` exactly when an update's market id is missing or empty, and the updates before the first such one are applied, the books kept, and their keys resolved in order |
| Handlers.StoreTrades | python/ccxt/pro/bitmart.py:254-264 | each trade resolves `table:marketId` in order and no symbol's cache is dropped |
| Handlers.HandleTrades | python/ccxt/pro/bitmart.py:252-265 | the frame raises `TypeError` exactly when a trade's market id is missing or empty; the trades before the first such one are stored with the configured trades limit and their keys resolved in order |
| Handlers.TradesAppendedPerSymbol | python/ccxt/pro/bitmart.py:255-263 | per symbol, a frame appends exactly that symbol's trades in order, to the existing cache or a new one with the trades limit |
| Handlers.StoreTickers | python/ccxt/pro/bitmart.py:287-292 | per symbol the last ticker of the frame wins; symbols not in the frame keep their ticker; one key per ticker |
| Handlers.HandleTickers | python/ccxt/pro/bitmart.py:285-293 | the frame raises `TypeError` exactly when a ticker's market id is missing or empty; up to the first such one, the last ticker per symbol wins, other symbols keep theirs, and one key per ticker is resolved |
| Handlers.Bucketed | python/ccxt/pro/bitmart.py:341 | a stored candle differs from the parsed one only in its timestamp, which is `AlignDown` of the original: a multiple of the bucket length and, for a non-negative timestamp, the start of the bucket holding it |
| Handlers.CandlesOf | python/ccxt/pro/bitmart.py:335-341 | every candle a frame contributes has a bucket-aligned timestamp |
| Handlers.StoreCandles | python/ccxt/pro/bitmart.py:335-350 | one `table:marketId` key per record in order; no symbol is dropped |
| Handlers.CandlesAppendedPerSymbol | python/ccxt/pro/bitmart.py:342-348 | per symbol, the frame timeframe's cache is the one that was there, or a new one with the OHLCV limit, extended by exactly the symbol's bucketed candles in frame order; it is created only if the frame has candles for the symbol |
| Handlers.CandlesKeepOtherTimeframes | python/ccxt/pro/bitmart.py:342-347 | a kline frame leaves every other timeframe's cache of every symbol as it was, and creates none |
| Handlers.CacheAtPut | python/ccxt/pro/bitmart.py:347 | setting one symbol/timeframe cache changes no other cache |
| Handlers.DurationMs | python/ccxt/pro/bitmart.py:333-334 | the bucket length of a known timeframe is its `parse_timeframe` seconds times 1000, and is positive |
| Handlers.HandleOhlcv | python/ccxt/pro/bitmart.py:326-350 | an unrecoverable timeframe fails the frame with its error before any record is read; otherwise the frame raises `TypeError` exactly when a record's market id is missing or empty, and the records before the first such one are stored with the configured OHLCV limit and their keys resolved |
| Handlers.OrderMarketIds | python/ccxt/pro/bitmart.py:168-173 | market ids are found for all orders exactly when every order's symbol is loaded; otherwise the first unknown one raises `BadSymbol` |
| Handlers.ParseOrders | python/ccxt/pro/bitmart.py:168-169 | one parsed order per raw order, in order |
| Handlers.HandleOrders | python/ccxt/pro/bitmart.py:159-176 | an empty batch does nothing; otherwise the single cache, created with the configured orders limit, gets the batch and keys are resolved only if no `market` lookup raised; when one raises `BadSymbol`, the cache holds the orders up to and including the first unknown one and no key is resolved |
| Handlers.OrderKeysMatchMarketIds | python/ccxt/pro/bitmart.py:172-176 | in a consistent registry every order on a known market resolves `table:` followed by its own market id |
| Watchers.Subscribe | python/ccxt/pro/bitmart.py:63-72 | an unknown symbol raises `BadSymbol`; otherwise `type/channel:id` is registered and the request is written only if it was new |
| Watchers.SubscribeIdempotent | python/ccxt/pro/bitmart.py:72 | subscribing twice to the same channel and symbol writes nothing the second time |
| Watchers.PublicHashParses | python/ccxt/pro/bitmart.py:67 | a subscription hash splits back into market type, channel and market id |
| Watchers.PublicHash | python/ccxt/pro/bitmart.py:67 | the hash starts with the market type and `/`, and its length is the sum of its parts and two separators |
| Watchers.PublicHashInjective | python/ccxt/pro/bitmart.py:67 | with no `/` in the market types and no `:` in the channels, equal hashes mean equal market type, channel and market id |
| Watchers.PrivateHash | python/ccxt/pro/bitmart.py:78 | the hash starts with the channel and `:`, and its length is the sum of its parts and one separator |
| Watchers.PrivateHashInjective | python/ccxt/pro/bitmart.py:78 | with no `:` in the channels, equal hashes mean equal channel and market id |
| Watchers.WatchTrades | python/ccxt/pro/bitmart.py:95-97 | an unknown symbol raises `BadSymbol`; otherwise it adds just the symbol's `trade` hash to the watched set, leaves the `authenticated` future as it was, and writes the subscribe request for that hash exactly when it was not yet watched |
| Watchers.WatchTicker | python/ccxt/pro/bitmart.py:102-109 | an unknown symbol raises `BadSymbol`; otherwise it adds just the symbol's `ticker` hash to the watched set, leaves the `authenticated` future as it was, and writes the subscribe request for that hash exactly when it was not yet watched |
| Config.OrderBookChannel | python/ccxt/pro/bitmart.py:360-361 | the configured depth channel, or `depth400` when it is unset or empty; never the empty channel |
| Watchers.WatchOrderBook | python/ccxt/pro/bitmart.py:352-363 | an unknown symbol raises `BadSymbol`; otherwise it adds just the hash of the configured depth channel to the watched set, leaves the `authenticated` future as it was, and writes the subscribe request for that hash exactly when it was not yet watched |
| Watchers.WatchOhlcv | python/ccxt/pro/bitmart.py:295-301 | an unknown symbol raises `BadSymbol` before an unknown timeframe raises `TypeError`; it succeeds exactly for a known symbol and timeframe, and then adds just the kline hash to the watched set, writing its request only if the hash was new |
| Watchers.TradeKeysMatchSubscription | python/ccxt/pro/bitmart.py:258 | each trade on the subscribed table resolves exactly the hash `watch_trades` registered; a market with an empty id fails every non-empty frame |
| Watchers.KlineKeysMatchSubscription | python/ccxt/pro/bitmart.py:349 | a frame on the subscribed kline table is read back as the subscribed timeframe and resolves the registered hash; a market with an empty id fails every non-empty frame |
| Watchers.DescribedDepthIsFive | python/ccxt/pro/bitmart.py:36-38 | the described options subscribe to `depth5`, whose frames give depth limit 5 |
| Watchers.UnsetDepthIsFourHundred | python/ccxt/pro/bitmart.py:361 | with no configured depth, or an empty one, the channel is `depth400`, whose frames give depth limit 400 |
| Watchers.SubscribePrivate | python/ccxt/pro/bitmart.py:74-84 | only an acknowledged login lets the private hash be registered; a rejected or pending one registers nothing but `login` |
| Watchers.LoginPrecedesPrivateSubscription | python/ccxt/pro/bitmart.py:79-84 | on a fresh connection the login frame is written before the subscription request, and exactly those two frames |
| Watchers.RejectedLoginSubscribesNothing | python/ccxt/pro/bitmart.py:79 | a login rejected with an authentication error fails the subscription with that error and writes no subscription request |
| Watchers.WatchOrders | python/ccxt/pro/bitmart.py:111-128 | a missing symbol raises `ArgumentsRequired`, an unknown one `BadSymbol`, a non-spot market `ArgumentsRequired`; success registers `spot/user/order:id` |
| Watchers.OrdersTableRoutes | python/ccxt/pro/bitmart.py:127 | the private order channel is routed to the orders handler |
| Watchers.OrderKeysMatchSubscription | python/ccxt/pro/bitmart.py:175 | each order on the watched market resolves exactly the hash `watch_orders` registered |
| InLock.Sign | js/inlock.js:70-91 | missing credentials raise; a GET keeps its body, and its URL is the endpoint alone without parameters and the endpoint, `?` and the encoded parameters with them; other methods send them as the body with no query; the three headers, signed over the final URL |
| InLock.GetQuerySplits | js/inlock.js:73-78 | a signed GET URL splits at `?` back into the endpoint and the encoded parameters |
| InLock.NonGetSignatureIgnoresParams | js/inlock.js:79-84 | for non-GET requests the parameters are not covered by the signature: URL and headers do not depend on them |
| InLock.LastCoinFor | js/inlock.js:51-58 | the last coin for a code exists exactly when some coin maps to that code |
| InLock.ParseBalance | js/inlock.js:46-61 | a missing response or `coins` list raises; otherwise the result holds `info` |
| InLock.StoreCoins | js/inlock.js:51-59 | existing keys survive, every coin's code becomes a key, and the last coin's account sits under its code |
| InLock.StoreCoinsLastWins | js/inlock.js:51-59 | each currency code holds the account of the last coin with that code; other keys keep their value |
| InLock.ParsedBalanceEntries | js/inlock.js:47-59 | the keys are exactly `info` and the coins' codes; each account has `used` = locked and `total` = balance with `free` unset; `info` is overwritten if a coin's code is `info` |
| InLock.HandleErrors | js/inlock.js:93-105 | something is raised exactly when a response has an `error` key; an exactly matched message raises its class; a missing message raises `ExchangeError` |
| InLock.RestErrorsClassifyLikeFrames | js/inlock.js:99-103 | the REST mapping equals the websocket frame classification with `ExchangeError` as fallback |
| InLock.BroadOrGeneric | js/inlock.js:102-103 | an unmatched message raises `ExchangeError`; a message containing a broad key raises the first such key's class |

## Left out

- Transport, compression, keep-alive and URL host substitution. The model records the frames written, not how they travel.
- Await and spawn timing. A spawned `watch` is modelled as a separate step (`Connection.Authenticate`, then `Connection.Watch`). The frame that arrives while the login is pending is a parameter of `Watchers.SubscribePrivate`.
- Futures other than `authenticated`: which value a resolved key delivers to its waiter is not modelled. Handlers return the keys they resolve, in order.
- HMAC-SHA256/SHA512, base58, URL encoding and `safeCurrencyCode` are base-class services not part of this model. They are function parameters.
- `load_markets` and market metadata: the registry is a parameter. `self.symbol(symbol)` in `watch_trades` is modelled by the `market` lookup it performs.
- The cache classes (`ArrayCache`, `ArrayCacheByTimestamp`, `ArrayCacheBySymbolById`) are not part of this model. A cache is its capacity and the sequence of records appended, so eviction and replacement by timestamp or id are not modelled.
- The order-book side classes are not part of this model. `store` is modelled as "zero deletes, otherwise insert or overwrite". Sorting and the `limit()` applied by `watch_order_book` are not modelled.
- `parse_trade`, `parse_ticker`, `parse_ohlcv` and `parse_ws_order` field mapping: their results are datatypes carrying the fields the handlers read (symbol, market id, timestamp). Prices and amounts are integers; float parsing and precision are not modelled.
- Handlers.Bucketed: models `int(ts / d) * d` with exact integer division truncating toward zero. Float rounding of the division for timestamps beyond 2^53 is not modelled.
- `filter_by_since_limit`, `getLimit` and `newUpdates` on the returned caches: these are caller-side views, not bookkeeping.
- `deep_extend` of request parameters is not modelled: requests carry only their `args`.
- `check_required_credentials` in `authenticate` is not modelled. In `InLock.Sign` it is modelled as "an empty API key or secret raises `AuthenticationError`".
- The exception tables of both exchanges are parameters: their contents are configuration.
- `safeBalance` is not modelled: `InLock.ParseBalance` returns the dictionary passed to it, so `free` is not derived.
- `fetchBalance` is not modelled beyond the `getBalance` object it hands to `parseBalance`: the request itself is network I/O.
- `console.log(query)` in `sign` and the unused `query` are not modelled.
- Text.ParseInt: models `int()` on an optional sign and decimal digits. Surrounding whitespace and `_` separators, which Python also accepts, are not modelled.
- `safe_string` treating an empty string as missing is modelled for the table and its segments (`Text.SafeString`, `Text.SafeAt`), for the `watchOrderBook` depth option, and for the `symbol` field of every trade, ticker, kline and depth record (`Handlers.TradeId`, `Handlers.TickerId`, `Handlers.KlineId`, `OrderBooks.UpdateId`). For the `event`, `errorCode` and `message` fields, an empty string is folded into `None`.
- Handlers.HandleOhlcv: the record whose market id is missing or empty has its candle appended under the symbol `safe_market` gives for it before `TypeError` is raised. That entry is not modelled: for a missing id that symbol is not a string.
- OrderBooks.HandleOrderBook: the update whose market id is missing or empty has its book created and filled under the symbol `safe_symbol` gives for it before `TypeError` is raised. That entry is not modelled: for a missing id that symbol is not a string.
- Connection.ErrorGate: the feedback text of a raised error is not modelled, only its class.
- InLock.HandleErrors: the broad table is consulted only when a message is present. The base class's treatment of a missing message is assumed to match nothing.

=== FILE: connection.dfy ===
/** The private connection's bookkeeping: the subscription registry, the
    `authenticated` future, the frames written so far, the login handshake
    and the error gate every inbound frame passes first. */
module Connection {
  import opened Wrappers
  import opened Text
  import opened Errors

  /** State of the future registered under `authenticated`. Settling a
      future removes it from the client, so a settled one is replaced by a
      fresh pending one the next time it is asked for. */
  datatype AuthFuture = NoFuture | Pending | Resolved | Rejected(reason: ErrorKind)

  /** Frames written to the connection. */
  datatype Outbound =
    | SubscribeRequest(args: seq<string>)
    | LoginRequest(apiKey: string, timestamp: string, signature: string)

  /** The client of one connection. */
  datatype Client = Client(subscriptions: set<string>, authenticated: AuthFuture, sent: seq<Outbound>)

  /** The control fields of an inbound frame, each absent when missing (or empty). */
  datatype Frame = Frame(table: Option<string>, event: Option<string>, errorCode: Option<string>, message: Option<string>)

  /** The keys of the private account: API key, secret and uid (the "memo"). */
  datatype Credentials = Credentials(apiKey: string, secret: string, uid: string)

  const LoginHash := "login"
  const LoginPath := "bitmart.WebSocket"

  /** The base class's `watch`: the subscribe hash is registered and the
      request written only when the hash is not registered yet. */
  function Watch(c: Client, subscribeHash: string, request: Outbound): (c': Client)
    ensures subscribeHash in c'.subscriptions
    ensures c'.subscriptions - {subscribeHash} == c.subscriptions - {subscribeHash}
    ensures c'.authenticated == c.authenticated
    ensures subscribeHash in c.subscriptions ==> c' == c
    ensures subscribeHash !in c.subscriptions ==> c'.sent == c.sent + [request]
  {
    if subscribeHash in c.subscriptions then c
    else c.(subscriptions := c.subscriptions + {subscribeHash}, sent := c.sent + [request])
  }

  /** Watching a hash a second time changes nothing. */
  lemma WatchIdempotent(c: Client, h: string, r1: Outbound, r2: Outbound)
    ensures Watch(Watch(c, h, r1), h, r2) == Watch(c, h, r1)
  {
  }

  /** The string the login signature covers. */
  function AuthPayload(timestamp: string, uid: string): string {
    timestamp + "#" + uid + "#" + LoginPath
  }

  /** The signed payload splits back on `#` into timestamp, uid and path. */
  lemma AuthPayloadSplits(nowMs: nat, uid: string)
    requires '#' !in uid
    ensures Split(AuthPayload(NatToString(nowMs), uid), '#') == [NatToString(nowMs), uid, LoginPath]
  {
    var ts := NatToString(nowMs);
    assert '#' !in ts by {
      forall i | 0 <= i < |ts| ensures ts[i] != '#' {
        assert IsDigit(ts[i]);
      }
    }
    var parts := [ts, uid, LoginPath];
    assert Join(parts, '#') == AuthPayload(ts, uid) by {
      assert parts[1..] == [uid, LoginPath];
      assert parts[1..][1..] == [LoginPath];
      assert Join(parts[1..], '#') == uid + "#" + LoginPath;
    }
    SplitJoin(parts, '#');
  }

  /** What one call of `authenticate` did: the client afterwards and the
      login request it spawned a `watch` for, if any. */
  datatype AuthStep = AuthStep(client: Client, spawned: Option<Outbound>)

  /** `authenticate`: when no `login` entry is registered it asks for the
      `authenticated` future and spawns a `watch` sending a login signed
      over `timestamp#uid#bitmart.WebSocket`; otherwise it only awaits. */
  function Authenticate(c: Client, creds: Credentials, nowMs: nat, hmac: (string, string) -> string): (step: AuthStep)
    ensures step.client.subscriptions == c.subscriptions && step.client.sent == c.sent
    ensures step.spawned.Some? <==> LoginHash !in c.subscriptions
    ensures step.spawned.Some? ==> step.client.authenticated == Pending
    ensures step.spawned.None? ==> step.client == c
    ensures step.spawned.Some? ==>
              && step.spawned.value.LoginRequest?
              && step.spawned.value.apiKey == creds.apiKey
              && step.spawned.value.timestamp == NatToString(nowMs)
              && step.spawned.value.signature == hmac(AuthPayload(NatToString(nowMs), creds.uid), creds.secret)
  {
    if LoginHash in c.subscriptions then AuthStep(c, None)
    else
      var timestamp := NatToString(nowMs);
      var signature := hmac(AuthPayload(timestamp, creds.uid), creds.secret);
      AuthStep(c.(authenticated := Pending), Some(LoginRequest(creds.apiKey, timestamp, signature)))
  }

  /** `authenticate` with its spawned `watch` run straight away. */
  function AuthenticateNow(c: Client, creds: Credentials, nowMs: nat, hmac: (string, string) -> string): Client {
    var step := Authenticate(c, creds, nowMs, hmac);
    match step.spawned
    case None => step.client
    case Some(request) => Watch(step.client, LoginHash, request)
  }

  /** The login frames among the frames written. */
  function LoginsSent(sent: seq<Outbound>): nat {
    if |sent| == 0 then 0
    else LoginsSent(sent[..|sent| - 1]) + (if sent[|sent| - 1].LoginRequest? then 1 else 0)
  }

  lemma LoginsSentAppend(sent: seq<Outbound>, o: Outbound)
    ensures LoginsSent(sent + [o]) == LoginsSent(sent) + (if o.LoginRequest? then 1 else 0)
  {
    assert (sent + [o])[..|sent|] == sent;
  }

  /** A login is written at most once while its registry entry stays: calling
      `authenticate` again sends nothing and leaves the client as it was. */
  lemma AuthenticateOnce(c: Client, creds: Credentials, t1: nat, t2: nat, hmac: (string, string) -> string)
    ensures var c1 := AuthenticateNow(c, creds, t1, hmac);
            && LoginHash in c1.subscriptions
            && AuthenticateNow(c1, creds, t2, hmac) == c1
            && LoginsSent(c1.sent) <= LoginsSent(c.sent) + 1
  {
    var step := Authenticate(c, creds, t1, hmac);
    if step.spawned.Some? {
      LoginsSentAppend(c.sent, step.spawned.value);
    }
  }

  /** Two `authenticate` calls made before either spawned `watch` has run
      both spawn one, yet the connection carries exactly one login: the
      first `watch` registers `login` and the second finds it registered. */
  lemma ConcurrentAuthenticateSendsOneLogin(c: Client, creds: Credentials, t1: nat, t2: nat, hmac: (string, string) -> string)
    requires LoginHash !in c.subscriptions
    ensures var a := Authenticate(c, creds, t1, hmac);
            var b := Authenticate(a.client, creds, t2, hmac);
            && a.spawned.Some? && b.spawned.Some?
            && var done := Watch(Watch(b.client, LoginHash, a.spawned.value), LoginHash, b.spawned.value);
               && done.sent == c.sent + [a.spawned.value]
               && LoginsSent(done.sent) == LoginsSent(c.sent) + 1
               && done.authenticated == Pending
  {
    var a := Authenticate(c, creds, t1, hmac);
    LoginsSentAppend(c.sent, a.spawned.value);
  }

  /** `client.reject(e, 'authenticated')`: a pending future is rejected; with no pending one nothing happens. */
  function RejectAuth(f: AuthFuture, e: ErrorKind): (f': AuthFuture)
    ensures f.Pending? ==> f' == Rejected(e)
    ensures !f.Pending? ==> f' == f
  {
    if f.Pending? then Rejected(e) else f
  }

  /** `handle_authenticate`: a login acknowledgement resolves a pending `authenticated` future. */
  function ResolveAuth(c: Client): (c': Client)
    ensures c'.subscriptions == c.subscriptions && c'.sent == c.sent
    ensures c.authenticated.Pending? ==> c'.authenticated == Resolved
    ensures !c.authenticated.Pending? ==> c' == c
  {
    if c.authenticated.Pending? then c.(authenticated := Resolved) else c
  }

  /** What the error gate decided: the client afterwards, and whether the frame goes on to routing. */
  datatype Gate = Gate(client: Client, proceed: bool)

  /** `handle_error_message`. A frame with an error code is classified; an
      authentication-class error rejects `authenticated`, purges the `login`
      entry and stops the frame; every other error is swallowed and the frame
      goes on, as does a frame without an error code. */
  function ErrorGate(c: Client, f: Frame, exact: ExactTable, broad: BroadTable): (g: Gate)
    ensures !g.proceed <==>
              && f.errorCode.Some?
              && var k := ClassifyFrame(exact, broad, f.errorCode.value, f.message);
                 k.Some? && k.value.isAuthentication
    ensures g.proceed ==> g.client == c
    ensures !g.proceed ==>
              && g.client.subscriptions == c.subscriptions - {LoginHash}
              && g.client.sent == c.sent
              && g.client.authenticated == RejectAuth(c.authenticated, ClassifyFrame(exact, broad, f.errorCode.value, f.message).value)
  {
    match f.errorCode
    case None => Gate(c, true)
    case Some(code) =>
      var kind := ClassifyFrame(exact, broad, code, f.message);
      if kind.Some? && kind.value.isAuthentication then
        var purged := if LoginHash in c.subscriptions then c.subscriptions - {LoginHash} else c.subscriptions;
        Gate(Client(purged, RejectAuth(c.authenticated, kind.value), c.sent), false)
      else Gate(c, true)
  }

  /** After the gate stops a frame for an authentication error, the next
      `authenticate` sends a fresh login and waits on a fresh future. */
  lemma AuthErrorAllowsRetry(c: Client, f: Frame, exact: ExactTable, broad: BroadTable,
                             creds: Credentials, nowMs: nat, hmac: (string, string) -> string)
    requires !ErrorGate(c, f, exact, broad).proceed
    ensures var g := ErrorGate(c, f, exact, broad);
            var step := Authenticate(g.client, creds, nowMs, hmac);
            && step.spawned.Some?
            && step.client.authenticated == Pending
            && AuthenticateNow(g.client, creds, nowMs, hmac).sent == g.client.sent + [step.spawned.value]
  {
  }

  /** A login that was awaited, then rejected by an error frame: the rejected
      future is observed, and only the retry writes a second login. */
  lemma LoginRejectRetry(c: Client, f: Frame, exact: ExactTable, broad: BroadTable,
                         creds: Credentials, t1: nat, t2: nat, hmac: (string, string) -> string)
    requires LoginHash !in c.subscriptions
    requires f.errorCode.Some?
    requires var k := ClassifyFrame(exact, broad, f.errorCode.value, f.message);
             k.Some? && k.value.isAuthentication
    ensures var c1 := AuthenticateNow(c, creds, t1, hmac);
            var g := ErrorGate(c1, f, exact, broad);
            var c2 := AuthenticateNow(g.client, creds, t2, hmac);
            && g.client.authenticated.Rejected?
            && LoginsSent(c2.sent) == LoginsSent(c.sent) + 2
            && c2.authenticated == Pending
  {
    var a := Authenticate(c, creds, t1, hmac);
    LoginsSentAppend(c.sent, a.spawned.value);
    var c1 := AuthenticateNow(c, creds, t1, hmac);
    var g := ErrorGate(c1, f, exact, broad);
    var b := Authenticate(g.client, creds, t2, hmac);
    LoginsSentAppend(g.client.sent, b.spawned.value);
  }
}

=== FILE: errors.dfy ===
/** Error classification shared by both exchanges: an exact table keyed by
    error code (or message) and a broad table of message substrings, the
    latter searched in its declaration order. */
module Errors {
  import opened Wrappers
  import opened Text

  /** A raised error: the name of its class and whether that class is
      `AuthenticationError` or one of its subclasses. */
  datatype ErrorKind = ErrorKind(name: string, isAuthentication: bool)

  const BadSymbol := ErrorKind("BadSymbol", false)
  const ArgumentsRequired := ErrorKind("ArgumentsRequired", false)
  const ExchangeError := ErrorKind("ExchangeError", false)
  const NotSupported := ErrorKind("NotSupported", false)
  const AuthenticationError := ErrorKind("AuthenticationError", true)
  /** Python runtime faults the code can hit (`None.find`, `'a' + None`, `int('')`). */
  const AttributeError := ErrorKind("AttributeError", false)
  const TypeError := ErrorKind("TypeError", false)
  const ValueError := ErrorKind("ValueError", false)

  /** What a frame handler leaves behind: its store as it stands, the keys
      it resolved, in order, and the error that stopped it, if any. */
  datatype Handled<S> = Handled(store: S, resolved: seq<string>, error: Option<ErrorKind>)

  /** Exact table: a code (or message) mapped to the class it raises. */
  type ExactTable = map<string, ErrorKind>

  /** Broad table, in declaration order: a substring mapped to the class it raises. */
  type BroadTable = seq<(string, ErrorKind)>

  /** `throw_broadly_matched_exception`: the class of the first entry whose
      key occurs in `s`, or nothing when no key occurs. */
  function BroadMatch(broad: BroadTable, s: string): (r: Option<ErrorKind>)
    ensures r.None? <==> forall i :: 0 <= i < |broad| ==> !Contains(s, broad[i].0)
    ensures r.Some? ==> exists i :: 0 <= i < |broad| && Contains(s, broad[i].0) && broad[i].1 == r.value
                                   && forall j :: 0 <= j < i ==> !Contains(s, broad[j].0)
  {
    if |broad| == 0 then None
    else if Contains(s, broad[0].0) then Some(broad[0].1)
    else
      var r := BroadMatch(broad[1..], s);
      FirstMatchShifts(broad, s, r);
      r
  }

  /** A first match in the tail of a table whose head does not match is a first match in the table. */
  lemma FirstMatchShifts(broad: BroadTable, s: string, r: Option<ErrorKind>)
    requires |broad| > 0 && !Contains(s, broad[0].0)
    requires r.Some? ==> exists i :: 0 <= i < |broad[1..]| && Contains(s, broad[1..][i].0) && broad[1..][i].1 == r.value
                                   && forall j :: 0 <= j < i ==> !Contains(s, broad[1..][j].0)
    ensures r.Some? ==> exists i :: 0 <= i < |broad| && Contains(s, broad[i].0) && broad[i].1 == r.value
                                   && forall j :: 0 <= j < i ==> !Contains(s, broad[j].0)
  {
    if r.Some? {
      var i :| 0 <= i < |broad[1..]| && Contains(s, broad[1..][i].0) && broad[1..][i].1 == r.value
               && forall j :: 0 <= j < i ==> !Contains(s, broad[1..][j].0);
      assert Contains(s, broad[i + 1].0) && broad[i + 1].1 == r.value;
      forall j | 0 <= j < i + 1
        ensures !Contains(s, broad[j].0)
      {
        if j > 0 {
          assert broad[j] == broad[1..][j - 1];
        }
      }
    }
  }

  /** The classification an error frame receives: the exact table on the
      code first, then the broad table on the message when there is one. */
  function ClassifyFrame(exact: ExactTable, broad: BroadTable, code: string, message: Option<string>): (r: Option<ErrorKind>)
    ensures code in exact ==> r == Some(exact[code])
    ensures code !in exact && message.None? ==> r.None?
    ensures code !in exact && message.Some? ==> r == BroadMatch(broad, message.value)
  {
    if code in exact then Some(exact[code])
    else if message.Some? then BroadMatch(broad, message.value)
    else None
  }
}

=== FILE: handlers.dfy ===
/** The per-symbol bookkeeping of the trade, ticker, OHLCV and order
    handlers. The cache classes are not part of this model: a cache is
    represented by its capacity and the records appended to it, in order,
    and what it keeps of them (eviction, replacement by timestamp or id) is
    left to the cache. */
module Handlers {
  import opened Wrappers
  import opened Errors
  import opened Text
  import opened Markets
  import opened Config
  import opened Timeframes

  /** A cache as created with a capacity, and everything appended to it. */
  datatype Cache<T> = Cache(limit: int, appended: seq<T>)

  function Append<T>(c: Cache<T>, x: T): Cache<T> {
    c.(appended := c.appended + [x])
  }

  /** A parsed trade: its unified symbol and the raw record's `symbol`
      field, `None` when the record has none. */
  datatype Trade = Trade(symbol: string, marketId: Option<string>, price: int, amount: int, timestamp: int)

  /** `safe_string(trade['info'], 'symbol')`: the market id `handle_trade`
      resolves, missing when the field is absent or empty. */
  function TradeId(x: Trade): Option<string> {
    SafeString(x.marketId)
  }

  /** The records of `data` whose symbol is `s`, in order. */
  function TradesOf(data: seq<Trade>, s: string): seq<Trade>
    decreases |data|
  {
    if |data| == 0 then []
    else TradesOf(data[..|data| - 1], s) + (if data[|data| - 1].symbol == s then [data[|data| - 1]] else [])
  }

  /** The loop of `handle_trade` over trades that all carry a market id:
      each trade appended to its symbol's cache, created with the trades
      limit on first sight; each trade resolves `table:marketId`. */
  function StoreTrades(trades: map<string, Cache<Trade>>, tradesLimit: int, table: string, data: seq<Trade>)
    : (res: (map<string, Cache<Trade>>, seq<string>))
    requires forall i :: 0 <= i < |data| ==> data[i].marketId.Some?
    ensures |res.1| == |data|
    ensures forall i :: 0 <= i < |data| ==> res.1[i] == table + ":" + data[i].marketId.value
    ensures trades.Keys <= res.0.Keys
    decreases |data|
  {
    if |data| == 0 then (trades, [])
    else
      var prev := StoreTrades(trades, tradesLimit, table, data[..|data| - 1]);
      var t := data[|data| - 1];
      var stored := if t.symbol in prev.0 then prev.0[t.symbol] else Cache(tradesLimit, []);
      (prev.0[t.symbol := Append(stored, t)], prev.1 + [table + ":" + t.marketId.value])
  }

  /** Per symbol, a frame appends exactly that symbol's trades, in frame
      order, to the cache that was there, or to a fresh one with the trades
      limit; a symbol the frame does not mention keeps its cache. */
  lemma {:induction false} TradesAppendedPerSymbol(trades: map<string, Cache<Trade>>, tradesLimit: int, table: string,
                                                   data: seq<Trade>, s: string)
    requires forall i :: 0 <= i < |data| ==> data[i].marketId.Some?
    ensures var res := StoreTrades(trades, tradesLimit, table, data).0;
            && (s in res <==> s in trades || TradesOf(data, s) != [])
            && (s in res ==>
                  && res[s].appended == (if s in trades then trades[s].appended else []) + TradesOf(data, s)
                  && res[s].limit == (if s in trades then trades[s].limit else tradesLimit))
    decreases |data|
  {
    if |data| > 0 {
      TradesAppendedPerSymbol(trades, tradesLimit, table, data[..|data| - 1], s);
    }
  }

  /** `handle_trade`: the trades stored and resolved in order, with the
      `tradesLimit` option (1000 when unset) for new caches. A trade whose
      raw `symbol` is missing or empty raises `TypeError` when its key
      `table + ':' + None` is built, before it is stored: the trades before
      it stay stored and resolved, and it and those after it are dropped. */
  function HandleTrades(trades: map<string, Cache<Trade>>, o: Options, table: string, data: seq<Trade>)
    : (res: Handled<map<string, Cache<Trade>>>)
    ensures res.error.None? <==> forall i :: 0 <= i < |data| ==> SafeString(data[i].marketId).Some?
    ensures res.error.Some? ==> res.error.value == TypeError
    ensures var done := Identified(data, TradeId);
            && res.store == StoreTrades(trades, TradesLimit(o), table, done).0
            && |res.resolved| == |done|
            && forall i :: 0 <= i < |done| ==> res.resolved[i] == table + ":" + done[i].marketId.value
  {
    var prefix := Identified(data, TradeId);
    var done := StoreTrades(trades, TradesLimit(o), table, prefix);
    Handled(done.0, done.1, if |prefix| < |data| then Some(TypeError) else None)
  }

  /** A parsed ticker: its unified symbol and the raw record's `symbol`
      field, `None` when the record has none. */
  datatype Ticker = Ticker(symbol: string, marketId: Option<string>, last: int, timestamp: int)

  /** `safe_string(ticker['info'], 'symbol')`: the market id
      `handle_ticker` resolves, missing when the field is absent or empty. */
  function TickerId(x: Ticker): Option<string> {
    SafeString(x.marketId)
  }

  /** The last ticker of `data` for symbol `s`, if any. */
  function LastTickerFor(data: seq<Ticker>, s: string): Option<Ticker>
    decreases |data|
  {
    if |data| == 0 then None
    else if data[|data| - 1].symbol == s then Some(data[|data| - 1])
    else LastTickerFor(data[..|data| - 1], s)
  }

  /** The loop of `handle_ticker` over tickers that all carry a market id:
      one ticker per symbol, the last write winning; each ticker resolves
      `table:marketId`. */
  function StoreTickers(tickers: map<string, Ticker>, table: string, data: seq<Ticker>)
    : (res: (map<string, Ticker>, seq<string>))
    requires forall i :: 0 <= i < |data| ==> data[i].marketId.Some?
    ensures |res.1| == |data|
    ensures forall i :: 0 <= i < |data| ==> res.1[i] == table + ":" + data[i].marketId.value
    ensures forall s :: LastTickerFor(data, s).Some? ==> s in res.0 && res.0[s] == LastTickerFor(data, s).value
    ensures forall s :: LastTickerFor(data, s).None? ==> (s in res.0 <==> s in tickers) && (s in tickers ==> res.0[s] == tickers[s])
    decreases |data|
  {
    if |data| == 0 then (tickers, [])
    else
      var prev := StoreTickers(tickers, table, data[..|data| - 1]);
      var t := data[|data| - 1];
      (prev.0[t.symbol := t], prev.1 + [table + ":" + t.marketId.value])
  }

  /** `handle_ticker`: the tickers stored and resolved in order. A ticker
      whose raw `symbol` is missing or empty raises `TypeError` when its
      key is built, before it is stored: the tickers before it stay stored
      and resolved, and it and those after it are dropped. */
  function HandleTickers(tickers: map<string, Ticker>, table: string, data: seq<Ticker>)
    : (res: Handled<map<string, Ticker>>)
    ensures res.error.None? <==> forall i :: 0 <= i < |data| ==> SafeString(data[i].marketId).Some?
    ensures res.error.Some? ==> res.error.value == TypeError
    ensures var done := Identified(data, TickerId);
            && |res.resolved| == |done|
            && (forall i :: 0 <= i < |done| ==> res.resolved[i] == table + ":" + done[i].marketId.value)
            && (forall s :: LastTickerFor(done, s).Some? ==>
                  s in res.store && res.store[s] == LastTickerFor(done, s).value)
            && (forall s :: LastTickerFor(done, s).None? ==>
                  (s in res.store <==> s in tickers) && (s in tickers ==> res.store[s] == tickers[s]))
  {
    var prefix := Identified(data, TickerId);
    var done := StoreTickers(tickers, table, prefix);
    Handled(done.0, done.1, if |prefix| < |data| then Some(TypeError) else None)
  }

  /** A parsed candle: timestamp in milliseconds, then open, high, low, close, volume. */
  datatype Candle = Candle(timestamp: int, open: int, high: int, low: int, close: int, volume: int)

  /** One element of a kline frame's `data`: its `symbol` field, `None`
      when the record has none, and its parsed candle. */
  datatype KlineRecord = KlineRecord(marketId: Option<string>, candle: Candle)

  /** `safe_string(data[i], 'symbol')`: the market id `handle_ohlcv`
      resolves, missing when the field is absent or empty. */
  function KlineId(x: KlineRecord): Option<string> {
    SafeString(x.marketId)
  }

  /** Per symbol, per timeframe, the candle cache. */
  type OhlcvStore = map<string, map<string, Cache<Candle>>>

  /** The candle with its timestamp snapped to the bucket of length
      `durationMs`: for a non-negative timestamp, the start of the bucket
      holding it. */
  function Bucketed(c: Candle, durationMs: int): (b: Candle)
    requires durationMs > 0
    ensures b.timestamp % durationMs == 0
    ensures b.timestamp == AlignDown(c.timestamp, durationMs)
    ensures c.timestamp >= 0 ==> b.timestamp <= c.timestamp < b.timestamp + durationMs
    ensures b.(timestamp := c.timestamp) == c
  {
    c.(timestamp := AlignDown(c.timestamp, durationMs))
  }

  /** The bucketed candles of the records of `data` whose market id resolves to `s`, in order. */
  function CandlesOf(r: Registry, data: seq<KlineRecord>, s: string, durationMs: int): (cs: seq<Candle>)
    requires durationMs > 0
    requires forall i :: 0 <= i < |data| ==> data[i].marketId.Some?
    ensures |cs| <= |data|
    ensures forall k :: 0 <= k < |cs| ==> cs[k].timestamp % durationMs == 0
    decreases |data|
  {
    if |data| == 0 then []
    else
      var rec := data[|data| - 1];
      CandlesOf(r, data[..|data| - 1], s, durationMs)
        + (if SafeSymbol(r, rec.marketId.value) == s then [Bucketed(rec.candle, durationMs)] else [])
  }

  /** The cache of symbol `s` and timeframe `tf`, if there is one. */
  function CacheAt(store: OhlcvStore, s: string, tf: string): Option<Cache<Candle>> {
    if s in store && tf in store[s] then Some(store[s][tf]) else None
  }

  /** The store with the cache of `s` and `tf` set to `c`, creating the symbol's entry if needed. */
  function PutCache(store: OhlcvStore, s: string, tf: string, c: Cache<Candle>): (r: OhlcvStore)
    ensures store.Keys + {s} == r.Keys
  {
    store[s := (if s in store then store[s] else map[])[tf := c]]
  }

  /** Reading back a cache after setting one: the one set, or what was there. */
  lemma CacheAtPut(store: OhlcvStore, s: string, tf: string, c: Cache<Candle>, s': string, tf': string)
    ensures CacheAt(PutCache(store, s, tf, c), s', tf') == if s' == s && tf' == tf then Some(c) else CacheAt(store, s', tf')
  {
  }

  /** The loop of `handle_ohlcv` over records that all carry a market id:
      each stored in order under its symbol and the frame's timeframe. */
  function StoreCandles(ohlcvs: OhlcvStore, r: Registry, limit: int, table: string, tf: string, durationMs: int,
                        data: seq<KlineRecord>): (res: (OhlcvStore, seq<string>))
    requires durationMs > 0
    requires forall i :: 0 <= i < |data| ==> data[i].marketId.Some?
    ensures |res.1| == |data|
    ensures forall i :: 0 <= i < |data| ==> res.1[i] == table + ":" + data[i].marketId.value
    ensures ohlcvs.Keys <= res.0.Keys
    decreases |data|
  {
    if |data| == 0 then (ohlcvs, [])
    else
      var prev := StoreCandles(ohlcvs, r, limit, table, tf, durationMs, data[..|data| - 1]);
      var rec := data[|data| - 1];
      var symbol := SafeSymbol(r, rec.marketId.value);
      var stored := CacheAt(prev.0, symbol, tf).GetOr(Cache(limit, []));
      (PutCache(prev.0, symbol, tf, Append(stored, Bucketed(rec.candle, durationMs))), prev.1 + [table + ":" + rec.marketId.value])
  }

  /** What a frame leaves in one cache: nothing when there was none and the
      frame adds nothing; otherwise the cache that was there (or a new one
      with the OHLCV limit) extended by the candles the frame adds. */
  function Extended(before: Option<Cache<Candle>>, limit: int, added: seq<Candle>): Option<Cache<Candle>> {
    if before.None? && added == [] then None
    else
      var base := before.GetOr(Cache(limit, []));
      Some(base.(appended := base.appended + added))
  }

  /** Per symbol, a kline frame appends that symbol's candles, each snapped
      to its bucket, to the cache of the frame's timeframe, created with the
      OHLCV limit when missing. */
  lemma {:induction false} CandlesAppendedPerSymbol(ohlcvs: OhlcvStore, r: Registry, limit: int, table: string, tf: string,
                                                    durationMs: int, data: seq<KlineRecord>, s: string)
    requires durationMs > 0
    requires forall i :: 0 <= i < |data| ==> data[i].marketId.Some?
    ensures CacheAt(StoreCandles(ohlcvs, r, limit, table, tf, durationMs, data).0, s, tf)
            == Extended(CacheAt(ohlcvs, s, tf), limit, CandlesOf(r, data, s, durationMs))
    decreases |data|
  {
    if |data| > 0 {
      var init := data[..|data| - 1];
      CandlesAppendedPerSymbol(ohlcvs, r, limit, table, tf, durationMs, init, s);
      var rec := data[|data| - 1];
      var symbol := SafeSymbol(r, rec.marketId.value);
      var prev := StoreCandles(ohlcvs, r, limit, table, tf, durationMs, init).0;
      var stored := CacheAt(prev, symbol, tf).GetOr(Cache(limit, []));
      var next := Append(stored, Bucketed(rec.candle, durationMs));
      assert StoreCandles(ohlcvs, r, limit, table, tf, durationMs, data).0 == PutCache(prev, symbol, tf, next);
      CacheAtPut(prev, symbol, tf, next, s, tf);
      if symbol == s {
        var before := CacheAt(ohlcvs, s, tf).GetOr(Cache(limit, []));
        assert stored.appended == before.appended + CandlesOf(r, init, s, durationMs);
        assert stored.appended + [Bucketed(rec.candle, durationMs)] == before.appended + CandlesOf(r, data, s, durationMs);
        assert stored.limit == before.limit;
      } else {
        assert CandlesOf(r, data, s, durationMs) == CandlesOf(r, init, s, durationMs);
      }
    } else if CacheAt(ohlcvs, s, tf).Some? {
      var c := CacheAt(ohlcvs, s, tf).value;
      assert c.appended + [] == c.appended;
    }
  }

  /** A kline frame leaves every other timeframe's cache as it was, and creates none. */
  lemma {:induction false} CandlesKeepOtherTimeframes(ohlcvs: OhlcvStore, r: Registry, limit: int, table: string, tf: string,
                                                      durationMs: int, data: seq<KlineRecord>, s: string, other: string)
    requires durationMs > 0
    requires forall i :: 0 <= i < |data| ==> data[i].marketId.Some?
    requires other != tf
    ensures CacheAt(StoreCandles(ohlcvs, r, limit, table, tf, durationMs, data).0, s, other) == CacheAt(ohlcvs, s, other)
    decreases |data|
  {
    if |data| > 0 {
      var init := data[..|data| - 1];
      CandlesKeepOtherTimeframes(ohlcvs, r, limit, table, tf, durationMs, init, s, other);
      var rec := data[|data| - 1];
      var symbol := SafeSymbol(r, rec.marketId.value);
      var prev := StoreCandles(ohlcvs, r, limit, table, tf, durationMs, init).0;
      var stored := CacheAt(prev, symbol, tf).GetOr(Cache(limit, []));
      CacheAtPut(prev, symbol, tf, Append(stored, Bucketed(rec.candle, durationMs)), s, other);
    }
  }

  /** The length of a configured timeframe in milliseconds, `parse_timeframe(tf) * 1000`. */
  function DurationMs(tf: string): (d: int)
    requires IntervalOf(tf).Some?
    ensures TimeframeSeconds(tf).Ok? && d == TimeframeSeconds(tf).value * 1000
    ensures d > 0
  {
    IntervalDurationsPositive(tf);
    TimeframeSeconds(tf).value * 1000
  }

  /** `handle_ohlcv`: the timeframe is read back from the table and its
      length computed before any record is looked at, so an unknown
      interval fails the whole frame, even an empty one. The records are
      then stored in order, new caches taking the `OHLCVLimit` option (1000
      when unset). A record whose `symbol` is missing or empty raises
      `TypeError` when its key is built: the records before it stay stored
      and resolved, and those after it are dropped. */
  function HandleOhlcv(ohlcvs: OhlcvStore, r: Registry, o: Options, table: string, data: seq<KlineRecord>)
    : (res: Handled<OhlcvStore>)
    ensures TableTimeframe(table).Err? ==> res == Handled(ohlcvs, [], Some(TableTimeframe(table).error))
    ensures TableTimeframe(table).Ok? ==>
              && (res.error.None? <==> forall i :: 0 <= i < |data| ==> SafeString(data[i].marketId).Some?)
              && (res.error.Some? ==> res.error.value == TypeError)
    ensures TableTimeframe(table).Ok? ==>
              var tf := TableTimeframe(table).value;
              var done := Identified(data, KlineId);
              && res.store == StoreCandles(ohlcvs, r, OhlcvLimit(o), table, tf, DurationMs(tf), done).0
              && |res.resolved| == |done|
              && forall i :: 0 <= i < |done| ==> res.resolved[i] == table + ":" + done[i].marketId.value
  {
    match TableTimeframe(table)
    case Err(e) => Handled(ohlcvs, [], Some(e))
    case Ok(tf) =>
      var prefix := Identified(data, KlineId);
      var done := StoreCandles(ohlcvs, r, OhlcvLimit(o), table, tf, DurationMs(tf), prefix);
      Handled(done.0, done.1, if |prefix| < |data| then Some(TypeError) else None)
  }

  /** The raw fields of a private order update the bookkeeping reads. */
  datatype RawOrder = RawOrder(marketId: string, orderId: Option<string>, state: Option<string>, msT: Option<int>)

  /** A parsed order: its unified symbol (through `safe_market`) and its raw record. */
  datatype Order = Order(symbol: string, id: Option<string>, raw: RawOrder)

  function ParseOrder(r: Registry, o: RawOrder): Order {
    Order(SafeSymbol(r, o.marketId), o.orderId, o)
  }

  /** `parse_ws_order` over a frame's records, in order. */
  function ParseOrders(r: Registry, data: seq<RawOrder>): (parsed: seq<Order>)
    ensures |parsed| == |data| && forall i :: 0 <= i < |data| ==> parsed[i] == ParseOrder(r, data[i])
  {
    seq(|data|, i requires 0 <= i < |data| => ParseOrder(r, data[i]))
  }

  /** The market ids of the orders' symbols, in order, or the first
      `market(symbol)` failure together with how many orders precede it. */
  function OrderMarketIds(r: Registry, orders: seq<Order>): (res: Result<seq<string>, (nat, ErrorKind)>)
    ensures res.Ok? <==> forall i :: 0 <= i < |orders| ==> orders[i].symbol in r.bySymbol
    ensures res.Ok? ==> |res.value| == |orders| && forall i :: 0 <= i < |orders| ==> res.value[i] == r.bySymbol[orders[i].symbol].id
    ensures res.Err? ==> && res.error.0 < |orders| && orders[res.error.0].symbol !in r.bySymbol
                         && (forall i :: 0 <= i < res.error.0 ==> orders[i].symbol in r.bySymbol)
                         && res.error.1 == BadSymbol
    decreases |orders|
  {
    if |orders| == 0 then Ok([])
    else
      match MarketOf(r, orders[0].symbol)
      case Err(e) => Err((0, e))
      case Ok(m) =>
        match OrderMarketIds(r, orders[1..])
        case Err((k, e)) => Err((k + 1, e))
        case Ok(ids) => Ok([m.id] + ids)
  }

  /** `handle_orders`: nothing happens for an empty batch. Otherwise the one
      order cache is created with the `ordersLimit` option (1000 when unset)
      if there is none, each parsed order is appended, and once every
      order's market id is known each resolves `table:id`. When
      `market(symbol)` raises for an order, the orders up to and including
      it are already appended and nothing is resolved. */
  function HandleOrders(orders: Option<Cache<Order>>, r: Registry, o: Options, table: string, data: seq<RawOrder>)
    : (res: Handled<Option<Cache<Order>>>)
    ensures |data| == 0 ==> res == Handled(orders, [], None)
    ensures |data| > 0 ==> res.store.Some? && res.store.value.limit == (if orders.Some? then orders.value.limit else OrdersLimit(o))
    ensures res.error.None? <==> forall i :: 0 <= i < |data| ==> SafeSymbol(r, data[i].marketId) in r.bySymbol
    ensures res.error.None? ==>
              && |res.resolved| == |data|
              && forall i :: 0 <= i < |data| ==>
                   && SafeSymbol(r, data[i].marketId) in r.bySymbol
                   && res.resolved[i] == table + ":" + r.bySymbol[SafeSymbol(r, data[i].marketId)].id
    ensures res.error.None? && |data| > 0 ==>
              res.store.value.appended == (if orders.Some? then orders.value.appended else []) + ParseOrders(r, data)
    ensures res.error.Some? ==> res.resolved == [] && res.error.value == BadSymbol
    ensures res.error.Some? ==>
              && OrderMarketIds(r, ParseOrders(r, data)).Err?
              && var k := OrderMarketIds(r, ParseOrders(r, data)).error.0;
                 && SafeSymbol(r, data[k].marketId) !in r.bySymbol
                 && (forall i :: 0 <= i < k ==> SafeSymbol(r, data[i].marketId) in r.bySymbol)
                 && res.store.value.appended == (if orders.Some? then orders.value.appended else []) + ParseOrders(r, data)[..k + 1]
  {
    if |data| == 0 then Handled(orders, [], None)
    else
      var stored := if orders.Some? then orders.value else Cache(OrdersLimit(o), []);
      var parsed := ParseOrders(r, data);
      match OrderMarketIds(r, parsed)
      case Ok(ids) =>
        Handled(Some(stored.(appended := stored.appended + parsed)),
                seq(|ids|, i requires 0 <= i < |ids| => table + ":" + ids[i]), None)
      case Err((k, e)) =>
        Handled(Some(stored.(appended := stored.appended + parsed[..k + 1])), [], Some(e))
  }

  /** For orders on known markets, the key each order resolves is the one
      its subscription registered: the table followed by the order's own market id. */
  lemma OrderKeysMatchMarketIds(orders: Option<Cache<Order>>, r: Registry, o: Options, table: string, data: seq<RawOrder>)
    requires Consistent(r)
    requires forall i :: 0 <= i < |data| ==> data[i].marketId in r.byId
    ensures var res := HandleOrders(orders, r, o, table, data);
            && res.error.None?
            && forall i :: 0 <= i < |data| ==> res.resolved[i] == table + ":" + data[i].marketId
  {
    forall i | 0 <= i < |data|
      ensures SafeSymbol(r, data[i].marketId) in r.bySymbol
      ensures r.bySymbol[SafeSymbol(r, data[i].marketId)].id == data[i].marketId
    {
      SymbolRoundTrip(r, data[i].marketId);
    }
  }
}

=== FILE: inlock.dfy ===
/** The InLock REST client: request signing, balance parsing and error
    mapping. URL encoding, the HMAC-SHA512 with its base58 coding and the
    currency-code mapping are base-class services not part of this model;
    they enter as function parameters. */
module InLock {
  import opened Wrappers
  import opened Text
  import opened Errors

  const ApiBase := "https://api.inlock.io/inlock/api"
  const Version := "v1.0"
  const FormContentType := "application/x-www-form-urlencoded"

  /** Request parameters, in insertion order. */
  type Params = seq<(string, string)>

  /** What `sign` returns. */
  datatype Request = Request(url: string, verb: string, body: Option<string>, headers: map<string, string>)

  /** The endpoint URL before any query string. */
  function EndpointUrl(api: string, path: string): string {
    ApiBase + "/" + Version + "/" + api + "/" + path
  }

  /** `sign`: a GET carries its non-empty parameters as a query string and
      keeps the body it was given; any other method sends them encoded as
      the body and no query. Missing credentials raise
      `AuthenticationError`. The signature covers the final URL only. */
  function Sign(path: string, api: string, verb: string, params: Params, body: Option<string>,
                apiKey: string, secret: string,
                urlencode: Params -> string, signer: (string, string) -> string): (res: Result<Request, ErrorKind>)
    ensures res.Err? <==> apiKey == "" || secret == ""
    ensures res.Err? ==> res.error == AuthenticationError
    ensures res.Ok? ==> res.value.verb == verb && EndpointUrl(api, path) <= res.value.url
    ensures res.Ok? ==>
              && res.value.headers.Keys == {"Content-Type", "X-Apikey", "X-Signature"}
              && res.value.headers["Content-Type"] == FormContentType
              && res.value.headers["X-Apikey"] == apiKey
              && res.value.headers["X-Signature"] == signer(res.value.url, secret)
    ensures res.Ok? && verb != "GET" ==> res.value.url == EndpointUrl(api, path) && res.value.body == Some(urlencode(params))
    ensures res.Ok? && verb == "GET" ==> res.value.body == body
    ensures res.Ok? && verb == "GET" && |params| == 0 ==> res.value.url == EndpointUrl(api, path)
    ensures res.Ok? && verb == "GET" && |params| > 0 ==> res.value.url == EndpointUrl(api, path) + "?" + urlencode(params)
  {
    var base := EndpointUrl(api, path);
    var url := if verb == "GET" && |params| > 0 then base + "?" + urlencode(params) else base;
    var body' := if verb == "GET" then body else Some(urlencode(params));
    if apiKey == "" || secret == "" then Err(AuthenticationError)
    else
      var signature := signer(url, secret);
      Ok(Request(url, verb, body',
                 map["Content-Type" := FormContentType, "X-Apikey" := apiKey, "X-Signature" := signature]))
  }

  /** A signed GET with parameters splits at `?` into the endpoint and the
      encoded parameters, when neither the route nor the encoding holds a `?`. */
  lemma GetQuerySplits(path: string, api: string, params: Params, body: Option<string>, apiKey: string, secret: string,
                       urlencode: Params -> string, signer: (string, string) -> string)
    requires apiKey != "" && secret != "" && |params| > 0
    requires '?' !in api && '?' !in path && '?' !in urlencode(params)
    ensures var req := Sign(path, api, "GET", params, body, apiKey, secret, urlencode, signer).value;
            Split(req.url, '?') == [EndpointUrl(api, path), urlencode(params)]
  {
    var base := EndpointUrl(api, path);
    assert '?' !in base by {
      assert forall k :: 0 <= k < |base| ==>
               base[k] in ApiBase || base[k] == '/' || base[k] in Version || base[k] in api || base[k] in path;
    }
    SplitJoin([base, urlencode(params)], '?');
  }

  /** The body of a non-GET request is not signed: whatever the parameters,
      the signature is the same. */
  lemma NonGetSignatureIgnoresParams(path: string, api: string, verb: string, p1: Params, p2: Params,
                                     b1: Option<string>, b2: Option<string>, apiKey: string, secret: string,
                                     urlencode: Params -> string, signer: (string, string) -> string)
    requires verb != "GET" && apiKey != "" && secret != ""
    ensures var r1 := Sign(path, api, verb, p1, b1, apiKey, secret, urlencode, signer).value;
            var r2 := Sign(path, api, verb, p2, b2, apiKey, secret, urlencode, signer).value;
            r1.headers == r2.headers && r1.url == r2.url
  {
  }

  /** One entry of the `coins` list of a balance response. */
  datatype Coin = Coin(ticker: Option<string>, balance: Option<string>, locked: Option<string>)

  /** The `getBalance` object of a balance response. */
  datatype BalanceResponse = BalanceResponse(coins: Option<seq<Coin>>)

  /** `account()` with `total` and `used` filled from one coin; `free` stays unset. */
  datatype Account = Account(free: Option<string>, used: Option<string>, total: Option<string>)

  /** A value of the balance dictionary: the raw response under `info`, an account under a currency code. */
  datatype BalanceEntry = Info(response: BalanceResponse) | Holding(account: Account)

  function AccountOf(c: Coin): Account {
    Account(None, c.locked, c.balance)
  }

  /** The coins stored in order, each under its currency code. */
  function StoreCoins(result: map<string, BalanceEntry>, coins: seq<Coin>, code: Option<string> -> string)
    : (r: map<string, BalanceEntry>)
    ensures result.Keys <= r.Keys
    ensures forall i :: 0 <= i < |coins| ==> code(coins[i].ticker) in r
    ensures |coins| > 0 ==> r[code(coins[|coins| - 1].ticker)] == Holding(AccountOf(coins[|coins| - 1]))
    decreases |coins|
  {
    if |coins| == 0 then result
    else
      var c := coins[|coins| - 1];
      StoreCoins(result, coins[..|coins| - 1], code)[code(c.ticker) := Holding(AccountOf(c))]
  }

  /** The last coin whose currency code is `k`, if any. */
  function LastCoinFor(coins: seq<Coin>, code: Option<string> -> string, k: string): (r: Option<Coin>)
    ensures r.Some? ==> r.value in coins && code(r.value.ticker) == k
    ensures r.None? <==> forall i :: 0 <= i < |coins| ==> code(coins[i].ticker) != k
    decreases |coins|
  {
    if |coins| == 0 then None
    else if code(coins[|coins| - 1].ticker) == k then Some(coins[|coins| - 1])
    else LastCoinFor(coins[..|coins| - 1], code, k)
  }

  /** `parseBalance` up to `safeBalance`: the response under `info`, then
      one account per coin. A missing response or `coins` list raises. */
  function ParseBalance(response: Option<BalanceResponse>, code: Option<string> -> string)
    : (res: Result<map<string, BalanceEntry>, ErrorKind>)
    ensures res.Ok? <==> response.Some? && response.value.coins.Some?
    ensures res.Err? ==> res.error == TypeError
    ensures res.Ok? ==> "info" in res.value
  {
    match response
    case None => Err(TypeError)
    case Some(resp) =>
      match resp.coins
      case None => Err(TypeError)
      case Some(coins) => Ok(StoreCoins(map["info" := Info(resp)], coins, code))
  }

  /** Each key of the stored balance holds the account of the last coin
      with that currency code; a key no coin maps to keeps what it had. */
  lemma {:induction false} StoreCoinsLastWins(result: map<string, BalanceEntry>, coins: seq<Coin>,
                                              code: Option<string> -> string, k: string)
    ensures var r := StoreCoins(result, coins, code);
            match LastCoinFor(coins, code, k)
            case Some(c) => k in r && r[k] == Holding(AccountOf(c))
            case None => (k in r <==> k in result) && (k in result ==> r[k] == result[k])
    decreases |coins|
  {
    if |coins| > 0 {
      StoreCoinsLastWins(result, coins[..|coins| - 1], code, k);
    }
  }

  /** The parsed balance holds exactly `info` and the coins' codes. Each code
      carries the last such coin's locked amount as `used` and its balance
      as `total`; `info` keeps the raw response unless a coin's code is `info`. */
  lemma ParsedBalanceEntries(resp: BalanceResponse, code: Option<string> -> string, k: string)
    requires resp.coins.Some?
    ensures var r := ParseBalance(Some(resp), code).value;
            var last := LastCoinFor(resp.coins.value, code, k);
            && (k in r <==> k == "info" || last.Some?)
            && (last.Some? ==> r[k] == Holding(Account(None, last.value.locked, last.value.balance)))
            && (k == "info" && last.None? ==> r[k] == Info(resp))
  {
    StoreCoinsLastWins(map["info" := Info(resp)], resp.coins.value, code, k);
  }

  /** The fields of a response `handleErrors` reads: whether it has an
      `error` key, and that error's `message`. */
  datatype ApiResponse = ApiResponse(hasError: bool, errorMessage: Option<string>)

  /** `handleErrors`: without a response, or without an `error` key, nothing
      is raised. Otherwise the message is matched exactly, then broadly, and
      an unmatched message raises `ExchangeError`: an `error` key always raises. */
  function HandleErrors(response: Option<ApiResponse>, exact: ExactTable, broad: BroadTable): (raised: Option<ErrorKind>)
    ensures raised.Some? <==> response.Some? && response.value.hasError
    ensures raised.Some? && response.value.errorMessage.Some? && response.value.errorMessage.value in exact ==>
              raised.value == exact[response.value.errorMessage.value]
    ensures raised.Some? && response.value.errorMessage.None? ==> raised.value == ExchangeError
  {
    match response
    case None => None
    case Some(resp) =>
      if !resp.hasError then None
      else
        match resp.errorMessage
        case None => Some(ExchangeError)
        case Some(m) =>
          if m in exact then Some(exact[m])
          else Some(BroadMatch(broad, m).GetOr(ExchangeError))
  }

  /** The REST error mapping agrees with the classification of a websocket
      error frame whose code and message are both the message, falling back
      to `ExchangeError` where the frame would be left unclassified. */
  lemma RestErrorsClassifyLikeFrames(m: string, exact: ExactTable, broad: BroadTable)
    ensures HandleErrors(Some(ApiResponse(true, Some(m))), exact, broad)
            == Some(ClassifyFrame(exact, broad, m, Some(m)).GetOr(ExchangeError))
  {
  }

  /** An unmatched message raises `ExchangeError`; a message containing a broad key raises the first such key's class. */
  lemma BroadOrGeneric(m: string, exact: ExactTable, broad: BroadTable)
    requires m !in exact
    ensures var raised := HandleErrors(Some(ApiResponse(true, Some(m))), exact, broad).value;
            && ((forall i :: 0 <= i < |broad| ==> !Contains(m, broad[i].0)) ==> raised == ExchangeError)
            && (forall i :: (0 <= i < |broad| && Contains(m, broad[i].0) && forall j :: 0 <= j < i ==> !Contains(m, broad[j].0))
                  ==> raised == broad[i].1)
  {
    var r := BroadMatch(broad, m);
    if r.Some? {
      var k :| 0 <= k < |broad| && Contains(m, broad[k].0) && broad[k].1 == r.value
               && forall j :: 0 <= j < k ==> !Contains(m, broad[j].0);
      forall i | 0 <= i < |broad| && Contains(m, broad[i].0) && (forall j :: 0 <= j < i ==> !Contains(m, broad[j].0))
        ensures broad[i].1 == r.value
      {
        assert !(i < k) && !(k < i);
      }
    }
  }
}

=== FILE: markets.dfy ===
/** Market metadata as the client sees it after loading: a registry it only
    reads, by unified symbol (`market`) and by exchange id (`safe_market`). */
module Markets {
  import opened Wrappers
  import opened Errors

  /** Reference data of one market. */
  datatype Market = Market(id: string, symbol: string, marketType: string)

  /** The loaded registry: markets by unified symbol and by exchange id. */
  datatype Registry = Registry(bySymbol: map<string, Market>, byId: map<string, Market>)

  /** Both indexes describe the same markets, each under its own key. */
  ghost predicate Consistent(r: Registry) {
    && (forall s :: s in r.bySymbol ==>
          r.bySymbol[s].symbol == s && r.bySymbol[s].id in r.byId && r.byId[r.bySymbol[s].id] == r.bySymbol[s])
    && (forall i :: i in r.byId ==>
          r.byId[i].id == i && r.byId[i].symbol in r.bySymbol && r.bySymbol[r.byId[i].symbol] == r.byId[i])
  }

  /** `market(symbol)`: the market of a unified symbol; an unknown symbol raises `BadSymbol`. */
  function MarketOf(r: Registry, symbol: string): (res: Result<Market, ErrorKind>)
    ensures res.Ok? <==> symbol in r.bySymbol
    ensures res.Ok? ==> res.value == r.bySymbol[symbol]
    ensures res.Err? ==> res.error == BadSymbol
  {
    if symbol in r.bySymbol then Ok(r.bySymbol[symbol]) else Err(BadSymbol)
  }

  /** `safe_market(marketId)['symbol']` (also `safe_symbol`): the unified symbol
      of a known exchange id; an unknown id stands for itself. */
  function SafeSymbol(r: Registry, marketId: string): string {
    if marketId in r.byId then r.byId[marketId].symbol else marketId
  }

  /** Going from an exchange id to its symbol and back with `market` returns the id. */
  lemma SymbolRoundTrip(r: Registry, marketId: string)
    requires Consistent(r)
    requires marketId in r.byId
    ensures MarketOf(r, SafeSymbol(r, marketId)).Ok?
    ensures MarketOf(r, SafeSymbol(r, marketId)).value.id == marketId
  {
  }
}

/** The options dictionary, reduced to the entries the handlers read. */
module Config {
  import opened Wrappers
  import opened Text

  /** `tradesLimit`, `OHLCVLimit`, `ordersLimit` and `watchOrderBook.depth`, each possibly unset. */
  datatype Options = Options(
    tradesLimit: Option<int>,
    ohlcvLimit: Option<int>,
    ordersLimit: Option<int>,
    orderBookDepth: Option<string>)

  /** The capacity the handlers fall back to when a limit is unset. */
  const DefaultCacheLimit := 1000

  /** The options as the exchange description sets them: only the book depth. */
  const Described := Options(None, None, None, Some("depth5"))

  function TradesLimit(o: Options): int {
    o.tradesLimit.GetOr(DefaultCacheLimit)
  }

  function OhlcvLimit(o: Options): int {
    o.ohlcvLimit.GetOr(DefaultCacheLimit)
  }

  function OrdersLimit(o: Options): int {
    o.ordersLimit.GetOr(DefaultCacheLimit)
  }

  /** The depth channel `watch_order_book` subscribes to: the configured
      one, or `depth400` when it is unset or empty, as `safe_string` reads it. */
  function OrderBookChannel(o: Options): (channel: string)
    ensures SafeString(o.orderBookDepth).None? ==> channel == "depth400"
    ensures SafeString(o.orderBookDepth).Some? ==> channel == o.orderBookDepth.value
    ensures channel != ""
  {
    SafeString(o.orderBookDepth).GetOr("depth400")
  }
}

=== FILE: orderbooks.dfy ===
/** Order-book reconciliation: the depth limit read from the channel name,
    one book per symbol created on first sight, and every update resetting
    its symbol's book before storing the update's levels. */
module OrderBooks {
  import opened Wrappers
  import opened Text
  import opened Errors
  import opened Markets

  /** One `[price, amount]` entry of an update. */
  datatype Level = Level(price: int, amount: int)

  /** One side of a book, price to amount. */
  type Side = map<int, int>

  /** No level of the side holds a zero amount. */
  ghost predicate NoZeroLevels(side: Side) {
    forall p :: p in side ==> side[p] != 0
  }

  /** The side's `store` under its assumed contract (the side class is not
      part of this model): a zero amount deletes the level, any other
      amount inserts or overwrites it. */
  function Store(side: Side, price: int, amount: int): Side {
    if amount == 0 then side - {price} else side[price := amount]
  }

  /** `handle_deltas`: the entries stored in order. */
  function ApplyDeltas(side: Side, deltas: seq<Level>): (r: Side)
    ensures NoZeroLevels(side) ==> NoZeroLevels(r)
    decreases |deltas|
  {
    if |deltas| == 0 then side
    else
      var last := deltas[|deltas| - 1];
      Store(ApplyDeltas(side, deltas[..|deltas| - 1]), last.price, last.amount)
  }

  /** The amount of the last entry at `price`, if any entry has that price. */
  function LastAmount(deltas: seq<Level>, price: int): Option<int>
    decreases |deltas|
  {
    if |deltas| == 0 then None
    else if deltas[|deltas| - 1].price == price then Some(deltas[|deltas| - 1].amount)
    else LastAmount(deltas[..|deltas| - 1], price)
  }

  /** After a batch, a price carries the amount of its last entry when that
      is non-zero and is absent when it is zero; a price the batch does not
      mention keeps what it had. */
  lemma {:induction false} ApplyDeltasLevel(side: Side, deltas: seq<Level>, p: int)
    ensures var r := ApplyDeltas(side, deltas);
            match LastAmount(deltas, p)
            case Some(a) => (p in r <==> a != 0) && (p in r ==> r[p] == a)
            case None => (p in r <==> p in side) && (p in r ==> r[p] == side[p])
    decreases |deltas|
  {
    if |deltas| > 0 {
      ApplyDeltasLevel(side, deltas[..|deltas| - 1], p);
    }
  }

  /** Applied to an emptied side, a batch leaves exactly its prices whose
      last entry is non-zero, each with that amount. */
  lemma BatchOnEmptySide(deltas: seq<Level>, p: int)
    ensures var r := ApplyDeltas(map[], deltas);
            && (p in r <==> LastAmount(deltas, p).Some? && LastAmount(deltas, p).value != 0)
            && (p in r ==> r[p] == LastAmount(deltas, p).value)
  {
    ApplyDeltasLevel(map[], deltas, p);
  }

  /** A zero amount at a price the side does not hold changes nothing. */
  lemma StoreZeroAbsentIsNoOp(side: Side, p: int)
    requires p !in side
    ensures Store(side, p, 0) == side
  {
  }

  /** A symbol's book: its sides, the last update's timestamp and symbol, and the depth limit it was created with. */
  datatype Book = Book(symbol: Option<string>, timestamp: Option<int>, asks: Side, bids: Side, depth: int)

  /** `order_book({}, limit)`: an empty book with the depth limit. */
  function NewBook(limit: int): Book {
    Book(None, None, map[], map[], limit)
  }

  /** `reset({})`: both sides emptied, symbol and timestamp cleared, the depth limit kept. */
  function Reset(b: Book): Book {
    Book(None, None, map[], map[], b.depth)
  }

  /** One element of an order-book frame's `data`; its `symbol` field is
      `None` when the update has none. */
  datatype DepthUpdate = DepthUpdate(marketId: Option<string>, asks: seq<Level>, bids: seq<Level>, msT: Option<int>)

  /** `safe_string(update, 'symbol')`: the market id `handle_order_book`
      resolves, missing when the field is absent or empty. */
  function UpdateId(x: DepthUpdate): Option<string> {
    SafeString(x.marketId)
  }

  /** `handle_order_book_message`: asks stored into the asks side, bids into
      the bids side, then symbol and timestamp set from the update. */
  function ApplyMessage(b: Book, u: DepthUpdate, symbol: string): (r: Book)
    ensures r.depth == b.depth
    ensures r.symbol == Some(symbol) && r.timestamp == u.msT
    ensures r.asks == ApplyDeltas(b.asks, u.asks) && r.bids == ApplyDeltas(b.bids, u.bids)
    ensures NoZeroLevels(b.asks) && NoZeroLevels(b.bids) ==> NoZeroLevels(r.asks) && NoZeroLevels(r.bids)
  {
    b.(asks := ApplyDeltas(b.asks, u.asks),
       bids := ApplyDeltas(b.bids, u.bids),
       symbol := Some(symbol),
       timestamp := u.msT)
  }

  const DepthPrefix := "depth"

  /** The depth limit of a table: the integer left after removing `depth`
      from its second `/`-segment. A missing or empty segment raises on
      `None.replace`; a bare `depth` leaves nothing to convert and `int('')`
      raises. */
  function DepthLimit(table: string): (r: Result<int, ErrorKind>)
    ensures r == Err(AttributeError) <==> SafeAt(Split(table, '/'), 1).None?
    ensures r.Err? ==> r.error == AttributeError || r.error == ValueError
    ensures r.Ok? ==> '/' in table
    ensures SafeAt(Split(table, '/'), 1).Some? ==>
              var digits := RemoveAll(SafeAt(Split(table, '/'), 1).value, DepthPrefix);
              && (r == Err(ValueError) <==> ParseInt(digits).None?)
              && (r.Ok? ==> Some(r.value) == ParseInt(digits))
  {
    SplitCount(table, '/');
    match SafeAt(Split(table, '/'), 1)
    case None => Err(AttributeError)
    case Some(name) =>
      match ParseInt(RemoveAll(name, DepthPrefix))
      case None => Err(ValueError)
      case Some(n) => Ok(n)
  }

  /** `t/depth<n>` carries depth limit `n`: `depth5` gives 5, `depth400` gives 400. */
  lemma DepthLimitOfSuffix(t: string, n: nat)
    requires '/' !in t
    ensures DepthLimit(t + "/" + (DepthPrefix + NatToString(n))) == Ok(n as int)
  {
    var digits := NatToString(n);
    var name := DepthPrefix + digits;
    assert '/' !in digits by {
      forall i | 0 <= i < |digits| ensures digits[i] != '/' {
        assert IsDigit(digits[i]);
      }
    }
    SplitJoin([t, name], '/');
    RemoveAllLeading(DepthPrefix, digits);
    assert 'd' !in digits by {
      forall i | 0 <= i < |digits| ensures digits[i] != 'd' {
        assert IsDigit(digits[i]);
      }
    }
    NotContainsFirstChar(digits, DepthPrefix);
    ParseIntOfNatToString(n);
  }

  /** The bare `t/depth` table, which the router accepts, has no limit: the conversion raises. */
  lemma BareDepthHasNoLimit(t: string)
    requires '/' !in t
    ensures DepthLimit(t + "/" + DepthPrefix) == Err(ValueError)
  {
    SplitJoin([t, DepthPrefix], '/');
    RemoveAllLeading(DepthPrefix, "");
    assert DepthPrefix + "" == DepthPrefix;
  }

  /** One update of an order-book frame: resolve the symbol, create its book
      with the limit when it has none, reset it, apply the update, and name
      the key the update resolves. */
  function ApplyOne(books: map<string, Book>, r: Registry, table: string, limit: int, u: DepthUpdate): (res: (map<string, Book>, string))
    requires u.marketId.Some?
    ensures var symbol := SafeSymbol(r, u.marketId.value);
            && res.0.Keys == books.Keys + {symbol}
            && (forall s :: s in books && s != symbol ==> res.0[s] == books[s])
            && res.0[symbol].depth == (if symbol in books then books[symbol].depth else limit)
            && res.0[symbol].asks == ApplyDeltas(map[], u.asks)
            && res.0[symbol].bids == ApplyDeltas(map[], u.bids)
            && res.0[symbol].symbol == Some(symbol)
            && res.0[symbol].timestamp == u.msT
            && res.1 == table + ":" + u.marketId.value
  {
    var symbol := SafeSymbol(r, u.marketId.value);
    var book := if symbol in books then books[symbol] else NewBook(limit);
    (books[symbol := ApplyMessage(Reset(book), u, symbol)], table + ":" + u.marketId.value)
  }

  /** The book an update leaves does not depend on what was there before,
      apart from the depth limit fixed when the book was created. */
  lemma UpdateForgetsPreviousBook(b1: map<string, Book>, b2: map<string, Book>, r: Registry,
                                   table: string, limit: int, u: DepthUpdate)
    requires u.marketId.Some?
    requires var symbol := SafeSymbol(r, u.marketId.value);
             (symbol in b1 <==> symbol in b2) && (symbol in b1 ==> b1[symbol].depth == b2[symbol].depth)
    ensures var symbol := SafeSymbol(r, u.marketId.value);
            ApplyOne(b1, r, table, limit, u).0[symbol] == ApplyOne(b2, r, table, limit, u).0[symbol]
  {
  }

  /** The updates of one frame, applied in order, with the key each resolves. */
  function ApplyUpdates(books: map<string, Book>, r: Registry, table: string, limit: int, data: seq<DepthUpdate>): (res: (map<string, Book>, seq<string>))
    requires forall i :: 0 <= i < |data| ==> data[i].marketId.Some?
    ensures |res.1| == |data|
    ensures forall i :: 0 <= i < |data| ==> res.1[i] == table + ":" + data[i].marketId.value
    ensures res.0.Keys == books.Keys + Touched(r, data)
    decreases |data|
  {
    if |data| == 0 then (books, [])
    else
      var init := data[..|data| - 1];
      assert forall i :: 0 <= i < |init| ==> init[i] == data[i];
      var prev := ApplyUpdates(books, r, table, limit, init);
      var next := ApplyOne(prev.0, r, table, limit, data[|data| - 1]);
      (next.0, prev.1 + [next.1])
  }

  /** The symbols the updates of a frame resolve to. */
  function Touched(r: Registry, data: seq<DepthUpdate>): set<string>
    requires forall i :: 0 <= i < |data| ==> data[i].marketId.Some?
    decreases |data|
  {
    if |data| == 0 then {} else Touched(r, data[..|data| - 1]) + {SafeSymbol(r, data[|data| - 1].marketId.value)}
  }

  /** Index of the last update for `symbol`, if any. */
  function LastUpdateFor(r: Registry, data: seq<DepthUpdate>, symbol: string): (k: Option<nat>)
    requires forall i :: 0 <= i < |data| ==> data[i].marketId.Some?
    ensures k.Some? ==> k.value < |data| && SafeSymbol(r, data[k.value].marketId.value) == symbol
    ensures k.Some? ==> forall j :: k.value < j < |data| ==> SafeSymbol(r, data[j].marketId.value) != symbol
    ensures k.None? ==> forall j :: 0 <= j < |data| ==> SafeSymbol(r, data[j].marketId.value) != symbol
    ensures k.Some? <==> symbol in Touched(r, data)
    decreases |data|
  {
    if |data| == 0 then None
    else if SafeSymbol(r, data[|data| - 1].marketId.value) == symbol then Some(|data| - 1)
    else LastUpdateFor(r, data[..|data| - 1], symbol)
  }

  /** A symbol the frame does not touch keeps its book, or stays without one. */
  lemma {:induction false} FrameKeepsUntouched(books: map<string, Book>, r: Registry, table: string, limit: int,
                                               data: seq<DepthUpdate>, symbol: string)
    requires forall i :: 0 <= i < |data| ==> data[i].marketId.Some?
    requires LastUpdateFor(r, data, symbol).None?
    ensures var res := ApplyUpdates(books, r, table, limit, data).0;
            (symbol in res <==> symbol in books) && (symbol in books ==> res[symbol] == books[symbol])
    decreases |data|
  {
    if |data| > 0 {
      FrameKeepsUntouched(books, r, table, limit, data[..|data| - 1], symbol);
    }
  }

  /** A book keeps the depth limit it was created with, whatever the frame. */
  lemma {:induction false} FrameKeepsDepth(books: map<string, Book>, r: Registry, table: string, limit: int,
                                           data: seq<DepthUpdate>, symbol: string)
    requires forall i :: 0 <= i < |data| ==> data[i].marketId.Some?
    ensures var res := ApplyUpdates(books, r, table, limit, data).0;
            symbol in res ==> res[symbol].depth == (if symbol in books then books[symbol].depth else limit)
    decreases |data|
  {
    if |data| > 0 {
      FrameKeepsDepth(books, r, table, limit, data[..|data| - 1], symbol);
    }
  }

  /** A touched symbol's book holds its last update's levels, symbol and timestamp. */
  lemma {:induction false} FrameHoldsLastUpdate(books: map<string, Book>, r: Registry, table: string, limit: int,
                                                data: seq<DepthUpdate>, symbol: string, k: nat)
    requires forall i :: 0 <= i < |data| ==> data[i].marketId.Some?
    requires LastUpdateFor(r, data, symbol) == Some(k)
    ensures var res := ApplyUpdates(books, r, table, limit, data).0;
            && symbol in res
            && res[symbol].asks == ApplyDeltas(map[], data[k].asks)
            && res[symbol].bids == ApplyDeltas(map[], data[k].bids)
            && res[symbol].symbol == Some(symbol)
            && res[symbol].timestamp == data[k].msT
    decreases |data|
  {
    if k < |data| - 1 {
      assert LastUpdateFor(r, data[..|data| - 1], symbol) == Some(k);
      FrameHoldsLastUpdate(books, r, table, limit, data[..|data| - 1], symbol, k);
    }
  }

  /** After a whole frame, each symbol's book holds exactly its last update's
      levels, symbol and timestamp; a symbol the frame does not touch keeps its book. */
  lemma FrameLeavesLastUpdate(books: map<string, Book>, r: Registry, table: string, limit: int,
                              data: seq<DepthUpdate>, symbol: string)
    requires forall i :: 0 <= i < |data| ==> data[i].marketId.Some?
    ensures var res := ApplyUpdates(books, r, table, limit, data).0;
            match LastUpdateFor(r, data, symbol)
            case None => (symbol in res <==> symbol in books) && (symbol in books ==> res[symbol] == books[symbol])
            case Some(k) =>
              && symbol in res
              && res[symbol].asks == ApplyDeltas(map[], data[k].asks)
              && res[symbol].bids == ApplyDeltas(map[], data[k].bids)
              && res[symbol].symbol == Some(symbol)
              && res[symbol].timestamp == data[k].msT
              && res[symbol].depth == (if symbol in books then books[symbol].depth else limit)
  {
    FrameKeepsDepth(books, r, table, limit, data, symbol);
    match LastUpdateFor(r, data, symbol)
    case None => FrameKeepsUntouched(books, r, table, limit, data, symbol);
    case Some(k) => FrameHoldsLastUpdate(books, r, table, limit, data, symbol, k);
  }

  /** `handle_order_book`: the limit is read from the table before any
      update, so a bad suffix fails the whole frame, even an empty one.
      The updates are then applied in order. An update whose `symbol` is
      missing or empty raises `TypeError` when its key is built: the
      updates before it stay applied and resolved, and those after it are
      dropped. */
  function HandleOrderBook(books: map<string, Book>, r: Registry, table: string, data: seq<DepthUpdate>)
    : (res: Handled<map<string, Book>>)
    ensures DepthLimit(table).Err? ==> res == Handled(books, [], Some(DepthLimit(table).error))
    ensures DepthLimit(table).Ok? ==>
              && (res.error.None? <==> forall i :: 0 <= i < |data| ==> SafeString(data[i].marketId).Some?)
              && (res.error.Some? ==> res.error.value == TypeError)
    ensures DepthLimit(table).Ok? ==>
              var done := Identified(data, UpdateId);
              && res.store == ApplyUpdates(books, r, table, DepthLimit(table).value, done).0
              && res.store.Keys == books.Keys + Touched(r, done)
              && |res.resolved| == |done|
              && forall i :: 0 <= i < |done| ==> res.resolved[i] == table + ":" + done[i].marketId.value
  {
    match DepthLimit(table)
    case Err(e) => Handled(books, [], Some(e))
    case Ok(limit) =>
      var prefix := Identified(data, UpdateId);
      var done := ApplyUpdates(books, r, table, limit, prefix);
      Handled(done.0, done.1, if |prefix| < |data| then Some(TypeError) else None)
  }
}

=== FILE: router.dfy ===
/** `handle_message`: every inbound frame first passes the error gate, then
    is classified by its control event or its data table and handed to one
    handler, or passed through. */
module Router {
  import opened Wrappers
  import opened Text
  import opened Errors
  import opened Connection

  /** The handlers a frame can be dispatched to. */
  datatype Handler =
    | AuthenticateHandler
    | SubscriptionStatus
    | OrderBookHandler
    | TickerHandler
    | TradeHandler
    | OhlcvHandler
    | OrdersHandler

  /** The routing decision: a handler, no handler (the frame is returned as
      it came), or a fault (`None.find` raises on a table without `/`). */
  datatype Route = Dispatch(handler: Handler) | PassThrough | Fault

  /** The fixed table of control events. */
  function EventHandler(event: string): Option<Handler> {
    if event == "login" then Some(AuthenticateHandler)
    else if event == "subscribe" then Some(SubscriptionStatus)
    else None
  }

  /** The fixed table of channel kinds (the second `/`-segment of a table). */
  function ChannelHandler(name: string): Option<Handler> {
    if name == "depth" || name == "depth5" || name == "depth400" then Some(OrderBookHandler)
    else if name == "ticker" then Some(TickerHandler)
    else if name == "trade" then Some(TradeHandler)
    else None
  }

  /** The classification of a frame that passed the gate. A missing or
      empty table sends the frame by its event. Otherwise the second
      `/`-segment must be there and non-empty (`None.find` raises); the
      channel kind picks the handler, a `kline` channel overrides that
      choice, and a third segment `order` overrides everything. */
  function Classify(table: Option<string>, event: Option<string>): (r: Route)
    ensures SafeString(table).None? ==> (r.Dispatch? <==> event == Some("login") || event == Some("subscribe"))
    ensures SafeString(table).None? && event == Some("login") ==> r == Dispatch(AuthenticateHandler)
    ensures SafeString(table).None? && event == Some("subscribe") ==> r == Dispatch(SubscriptionStatus)
    ensures SafeString(table).None? ==> !r.Fault?
  {
    match SafeString(table)
    case None =>
      (match event
       case None => PassThrough
       case Some(e) => if EventHandler(e).Some? then Dispatch(EventHandler(e).value) else PassThrough)
    case Some(t) => SegmentsRoute(Split(t, '/'))
  }

  /** The route a table's `/`-segments pick. */
  function SegmentsRoute(parts: seq<string>): Route {
    match SafeAt(parts, 1)
    case None => Fault
    case Some(name) =>
      var byName := ChannelHandler(name);
      var withKline := if Contains(name, "kline") then Some(OhlcvHandler) else byName;
      var chosen := if SafeAt(parts, 2) == Some("order") then Some(OrdersHandler) else withKline;
      if chosen.None? then PassThrough else Dispatch(chosen.value)
  }

  /** The route of a table's segments, case by case. */
  lemma SegmentsRouteCases(parts: seq<string>)
    ensures var r := SegmentsRoute(parts);
            && (r.Fault? <==> SafeAt(parts, 1).None?)
            && (r == Dispatch(OrdersHandler) <==> SafeAt(parts, 1).Some? && SafeAt(parts, 2) == Some("order"))
            && (r == Dispatch(OhlcvHandler) <==>
                  SafeAt(parts, 1).Some? && Contains(parts[1], "kline") && SafeAt(parts, 2) != Some("order"))
            && (SafeAt(parts, 1).Some? && !Contains(parts[1], "kline") && SafeAt(parts, 2) != Some("order") ==>
                  r == if ChannelHandler(parts[1]).Some? then Dispatch(ChannelHandler(parts[1]).value) else PassThrough)
  {
    if SafeAt(parts, 1).Some? {
      var h := ChannelHandler(parts[1]);
      assert h.Some? ==> h.value != OrdersHandler && h.value != OhlcvHandler;
    }
  }

  /** How a frame with a non-empty table is routed: a missing or empty
      channel kind raises; a third segment `order` picks the orders handler;
      otherwise a channel kind containing `kline` picks the OHLCV handler;
      otherwise the channel kind's entry in the fixed table, or no handler. */
  lemma ClassifyTableRoutes(t: string, event: Option<string>)
    requires t != ""
    ensures var r := Classify(Some(t), event);
            var parts := Split(t, '/');
            && (r.Fault? <==> SafeAt(parts, 1).None?)
            && (r == Dispatch(OrdersHandler) <==> SafeAt(parts, 1).Some? && SafeAt(parts, 2) == Some("order"))
            && (r == Dispatch(OhlcvHandler) <==>
                  SafeAt(parts, 1).Some? && Contains(parts[1], "kline") && SafeAt(parts, 2) != Some("order"))
            && (SafeAt(parts, 1).Some? && !Contains(parts[1], "kline") && SafeAt(parts, 2) != Some("order") ==>
                  r == if ChannelHandler(parts[1]).Some? then Dispatch(ChannelHandler(parts[1]).value) else PassThrough)
  {
    assert SafeString(Some(t)) == Some(t);
    assert Classify(Some(t), event) == SegmentsRoute(Split(t, '/'));
    SegmentsRouteCases(Split(t, '/'));
  }

  /** What became of an inbound frame. */
  datatype Outcome = Stopped | Routed(route: Route)

  /** `handle_message`: the gate, then the route; a login acknowledgement
      also resolves the `authenticated` future. */
  function HandleMessage(c: Client, f: Frame, exact: ExactTable, broad: BroadTable): (res: (Client, Outcome))
    ensures !ErrorGate(c, f, exact, broad).proceed ==> res.1 == Stopped
    ensures ErrorGate(c, f, exact, broad).proceed ==> res.1 == Routed(Classify(f.table, f.event))
    ensures res.1 != Routed(Dispatch(AuthenticateHandler)) ==> res.0 == ErrorGate(c, f, exact, broad).client
    ensures res.1 == Routed(Dispatch(AuthenticateHandler)) ==> res.0 == ResolveAuth(ErrorGate(c, f, exact, broad).client)
  {
    var g := ErrorGate(c, f, exact, broad);
    if !g.proceed then (g.client, Stopped)
    else
      var route := Classify(f.table, f.event);
      if route == Dispatch(AuthenticateHandler) then (ResolveAuth(g.client), Routed(route))
      else (g.client, Routed(route))
  }

  /** A two-segment table `t/name` routes by its channel kind, with `kline`
      taking precedence; an empty channel kind raises. */
  lemma PublicChannelRoute(t: string, name: string, ev: Option<string>)
    requires '/' !in t && '/' !in name
    ensures Classify(Some(t + "/" + name), ev) ==
            if name == "" then Fault
            else if Contains(name, "kline") then Dispatch(OhlcvHandler)
            else if ChannelHandler(name).Some? then Dispatch(ChannelHandler(name).value)
            else PassThrough
  {
    TwoSegments(t, name);
  }

  /** No channel kind of the fixed table holds a `/` or mentions `kline`. */
  lemma ChannelKindsPlain(name: string)
    requires ChannelHandler(name).Some?
    ensures '/' !in name && !Contains(name, "kline")
  {
    if name == "ticker" {
      assert name[0] != "kline"[0];
      assert name[1..] == "icker" && "icker"[0] != "kline"[0];
      NotContainsShort("cker", "kline");
      assert name[1..][1..] == "cker";
    } else {
      assert 'k' !in name;
      NotContainsFirstChar(name, "kline");
    }
  }

  /** Every channel kind of the fixed table reaches its handler. */
  lemma NamedChannelRoutes(t: string, name: string, ev: Option<string>)
    requires '/' !in t && ChannelHandler(name).Some?
    ensures Classify(Some(t + "/" + name), ev) == Dispatch(ChannelHandler(name).value)
  {
    ChannelKindsPlain(name);
    PublicChannelRoute(t, name, ev);
  }

  /** The trade and ticker tables of a market type `t` (no `/`) reach their handlers. */
  lemma TradeAndTickerTablesRoute(t: string, ev: Option<string>)
    requires '/' !in t
    ensures Classify(Some(t + "/" + "trade"), ev) == Dispatch(TradeHandler)
    ensures Classify(Some(t + "/" + "ticker"), ev) == Dispatch(TickerHandler)
  {
    NamedChannelRoutes(t, "trade", ev);
    NamedChannelRoutes(t, "ticker", ev);
  }

  /** The three depth tables of a market type `t` (no `/`) reach the order-book handler. */
  lemma DepthTablesRoute(t: string, ev: Option<string>)
    requires '/' !in t
    ensures Classify(Some(t + "/" + "depth"), ev) == Dispatch(OrderBookHandler)
    ensures Classify(Some(t + "/" + "depth5"), ev) == Dispatch(OrderBookHandler)
    ensures Classify(Some(t + "/" + "depth400"), ev) == Dispatch(OrderBookHandler)
  {
    NamedChannelRoutes(t, "depth", ev);
    NamedChannelRoutes(t, "depth5", ev);
    NamedChannelRoutes(t, "depth400", ev);
  }

  /** Every kline table `t/kline<interval>` reaches the OHLCV handler. */
  lemma KlineTablesRoute(t: string, interval: string, ev: Option<string>)
    requires '/' !in t && '/' !in interval
    ensures Classify(Some(t + "/" + ("kline" + interval)), ev) == Dispatch(OhlcvHandler)
  {
    var kline := "kline" + interval;
    assert "kline" <= kline;
    PublicChannelRoute(t, kline, ev);
  }

  /** The private order table `t/user/order` reaches the orders handler. */
  lemma PrivateOrderTableRoutes(t: string, ev: Option<string>)
    requires '/' !in t
    ensures Classify(Some(t + "/user/order"), ev) == Dispatch(OrdersHandler)
  {
    var parts := [t, "user", "order"];
    assert t + "/user/order" == Join(parts, '/') by {
      assert parts[1..] == ["user", "order"];
      assert parts[1..][1..] == ["order"];
      assert Join(parts[1..], '/') == "user/order";
    }
    SplitJoin(parts, '/');
    ClassifyTableRoutes(t + "/user/order", ev);
  }

  /** A frame the gate stops is never dispatched, whatever its table or event. */
  lemma StoppedFramesAreNotDispatched(c: Client, f: Frame, exact: ExactTable, broad: BroadTable)
    requires f.errorCode.Some?
    requires var k := ClassifyFrame(exact, broad, f.errorCode.value, f.message);
             k.Some? && k.value.isAuthentication
    ensures HandleMessage(c, f, exact, broad).1 == Stopped
    ensures LoginHash !in HandleMessage(c, f, exact, broad).0.subscriptions
  {
  }

  /** An error frame whose error is not authentication-class is swallowed
      and routed like any other frame: it carries neither table nor a known
      event, so it is passed through and nothing changes. */
  lemma OtherErrorsAreSwallowed(c: Client, f: Frame, exact: ExactTable, broad: BroadTable)
    requires f.errorCode.Some? && f.table.None? && f.event == Some("error")
    requires var k := ClassifyFrame(exact, broad, f.errorCode.value, f.message);
             k.None? || !k.value.isAuthentication
    ensures HandleMessage(c, f, exact, broad) == (c, Routed(PassThrough))
  {
  }
}

=== FILE: text.dfy ===
/** The string primitives the client relies on, with Python's meaning:
    `str.split` on one separator character, `str.find(..) >= 0`,
    `str.replace(pat, '')`, `str(n)` for a natural number and `int(s)`. */
module Text {
  import opened Wrappers

  /** Index of the first occurrence of `c` in `s`. */
  function IndexOf(s: string, c: char): (i: nat)
    requires c in s
    ensures i < |s| && s[i] == c
    ensures c !in s[..i]
  {
    if s[0] == c then 0
    else
      var j := IndexOf(s[1..], c);
      assert s[..j + 1] == [s[0]] + s[1..][..j];
      j + 1
  }

  /** The pieces of `parts` glued back together with `sep` between them. */
  function Join(parts: seq<string>, sep: char): string
    requires |parts| >= 1
  {
    if |parts| == 1 then parts[0] else parts[0] + [sep] + Join(parts[1..], sep)
  }

  /** Python's `s.split(sep)` for a one-character separator: the maximal
      separator-free pieces of `s`, in order; `""` gives `[""]`. */
  function Split(s: string, sep: char): (parts: seq<string>)
    ensures |parts| >= 1
    ensures forall i :: 0 <= i < |parts| ==> sep !in parts[i]
    ensures Join(parts, sep) == s
    decreases |s|
  {
    if sep !in s then [s]
    else
      var i := IndexOf(s, sep);
      var rest := Split(s[i + 1..], sep);
      assert ([s[..i]] + rest)[1..] == rest;
      assert s == s[..i] + [sep] + s[i + 1..];
      [s[..i]] + rest
  }

  /** Two `/`-free pieces joined by `/` split back into those pieces. */
  lemma TwoSegments(t: string, name: string)
    requires '/' !in t && '/' !in name
    ensures Split(t + "/" + name, '/') == [t, name]
  {
    SplitJoin([t, name], '/');
  }

  /** A string holds the separator exactly when it splits into two or more pieces. */
  lemma SplitCount(s: string, sep: char)
    ensures sep in s <==> |Split(s, sep)| >= 2
  {
  }

  /** `safe_string` on a value that may be missing: an empty string reads as missing too. */
  function SafeString(v: Option<string>): (r: Option<string>)
    ensures r.Some? <==> v.Some? && v.value != ""
    ensures r.Some? ==> r == v
  {
    if v == Some("") then None else v
  }

  /** `safe_string(parts, i)` on a list: the `i`-th element, missing when
      the list is too short or the element is empty. */
  function SafeAt(parts: seq<string>, i: nat): (r: Option<string>)
    ensures r.Some? <==> i < |parts| && parts[i] != ""
    ensures r.Some? ==> r.value == parts[i]
  {
    if i < |parts| && parts[i] != "" then Some(parts[i]) else None
  }

  lemma IndexOfAfterPrefix(a: string, sep: char, b: string)
    requires sep !in a
    ensures sep in a + [sep] + b
    ensures IndexOf(a + [sep] + b, sep) == |a|
  {
    var s := a + [sep] + b;
    assert s[|a|] == sep;
    assert forall k :: 0 <= k < |a| ==> s[k] == a[k];
    var i := IndexOf(s, sep);
    assert i <= |a| ==> s[..i] == a[..i];
  }

  /** Splitting `a + sep + b` peels `a` off when `a` has no separator. */
  lemma SplitAfterFirst(a: string, sep: char, b: string)
    requires sep !in a
    ensures Split(a + [sep] + b, sep) == [a] + Split(b, sep)
  {
    var s := a + [sep] + b;
    IndexOfAfterPrefix(a, sep, b);
    assert s[..|a|] == a;
    assert s[|a| + 1..] == b;
  }

  /** A separator-free head is fixed by where the first separator sits. */
  lemma HeadBeforeSeparator(a1: string, b1: string, a2: string, b2: string, sep: char)
    requires sep !in a1 && sep !in a2
    requires a1 + [sep] + b1 == a2 + [sep] + b2
    ensures a1 == a2 && b1 == b2
  {
    var s := a1 + [sep] + b1;
    IndexOfAfterPrefix(a1, sep, b1);
    IndexOfAfterPrefix(a2, sep, b2);
    assert a1 == s[..|a1|] && a2 == s[..|a2|];
    assert b1 == s[|a1| + 1..] && b2 == s[|a2| + 1..];
  }

  /** Round trip: splitting a join of separator-free pieces gives them back. */
  lemma {:induction false} SplitJoin(parts: seq<string>, sep: char)
    requires |parts| >= 1
    requires forall i :: 0 <= i < |parts| ==> sep !in parts[i]
    ensures Split(Join(parts, sep), sep) == parts
  {
    if |parts| > 1 {
      var rest := parts[1..];
      SplitAfterFirst(parts[0], sep, Join(rest, sep));
      SplitJoin(rest, sep);
      assert parts == [parts[0]] + rest;
    }
  }

  /** `pat` occurs somewhere in `s` (Python's `s.find(pat) >= 0`). */
  predicate Contains(s: string, pat: string)
    decreases |s|
  {
    pat <= s || (|s| > 0 && Contains(s[1..], pat))
  }

  /** `pat` sits in `s` starting at index `i`. */
  predicate OccursAt(s: string, pat: string, i: int) {
    0 <= i <= |s| - |pat| && s[i..i + |pat|] == pat
  }

  /** An occurrence past the first index is an occurrence in the tail, one index earlier, and back. */
  lemma OccursShift(s: string, pat: string, i: int)
    requires |s| > 0 && i >= 1
    ensures OccursAt(s, pat, i) <==> OccursAt(s[1..], pat, i - 1)
  {
    if 0 <= i <= |s| - |pat| {
      assert s[1..][i - 1..i - 1 + |pat|] == s[i..i + |pat|];
    }
  }

  /** `Contains` agrees with "some slice of `s` equals `pat`". */
  lemma {:induction false} ContainsIffOccurs(s: string, pat: string)
    ensures Contains(s, pat) <==> exists i :: OccursAt(s, pat, i)
  {
    if pat <= s {
      assert OccursAt(s, pat, 0);
    } else if |s| == 0 {
    } else {
      ContainsIffOccurs(s[1..], pat);
      if exists i :: OccursAt(s, pat, i) {
        var i :| OccursAt(s, pat, i);
        assert i != 0;
        OccursShift(s, pat, i);
      }
      if Contains(s[1..], pat) {
        var j :| OccursAt(s[1..], pat, j);
        OccursShift(s, pat, j + 1);
      }
    }
  }

  /** A non-empty pattern whose first character never occurs in `s` does not occur in `s`. */
  lemma {:induction false} NotContainsFirstChar(s: string, pat: string)
    requires |pat| > 0 && pat[0] !in s
    ensures !Contains(s, pat)
  {
    if |s| > 0 {
      assert s[0] != pat[0];
      NotContainsFirstChar(s[1..], pat);
    }
  }

  /** A pattern longer than `s` does not occur in it. */
  lemma {:induction false} NotContainsShort(s: string, pat: string)
    requires |s| < |pat|
    ensures !Contains(s, pat)
  {
    if |s| > 0 {
      NotContainsShort(s[1..], pat);
    }
  }

  /** Python's `s.replace(pat, '')`: deletes the non-overlapping occurrences
      of `pat`, scanning left to right. */
  function RemoveAll(s: string, pat: string): (r: string)
    requires |pat| > 0
    ensures |r| <= |s|
    ensures !Contains(s, pat) ==> r == s
    ensures Contains(s, pat) ==> |r| <= |s| - |pat|
    decreases |s|
  {
    if pat <= s then RemoveAll(s[|pat|..], pat)
    else if |s| == 0 then s
    else [s[0]] + RemoveAll(s[1..], pat)
  }

  /** Removing `pat` from `pat + v` removes the leading copy and carries on in `v`. */
  lemma RemoveAllLeading(pat: string, v: string)
    requires |pat| > 0
    ensures RemoveAll(pat + v, pat) == RemoveAll(v, pat)
  {
    assert pat <= pat + v;
    assert (pat + v)[|pat|..] == v;
  }

  predicate IsDigit(c: char) {
    '0' <= c <= '9'
  }

  predicate AllDigits(s: string) {
    forall i :: 0 <= i < |s| ==> IsDigit(s[i])
  }

  function DigitChar(d: nat): (c: char)
    requires d < 10
    ensures IsDigit(c)
  {
    ('0' as int + d) as char
  }

  function DigitValue(c: char): (d: nat)
    requires IsDigit(c)
    ensures d < 10
  {
    c as int - '0' as int
  }

  /** The value of a string of decimal digits, most significant first. */
  function DigitsValue(s: string): nat
    requires AllDigits(s)
  {
    if |s| == 0 then 0 else 10 * DigitsValue(s[..|s| - 1]) + DigitValue(s[|s| - 1])
  }

  /** Python's `str(n)` for a natural number: its decimal digits, no leading zero. */
  function NatToString(n: nat): (s: string)
    ensures |s| >= 1 && AllDigits(s)
    ensures |s| > 1 ==> s[0] != '0'
    decreases n
  {
    if n < 10 then [DigitChar(n)] else NatToString(n / 10) + [DigitChar(n % 10)]
  }

  /** Python's `int(s)` on a string: an optional sign followed by one or more
      decimal digits; any other string raises `ValueError`, modelled as `None`. */
  function ParseInt(s: string): (r: Option<int>)
    ensures |s| == 0 ==> r.None?
    ensures r.Some? <==> (|s| > 0 && AllDigits(s)) || (|s| > 1 && (s[0] == '+' || s[0] == '-') && AllDigits(s[1..]))
    ensures AllDigits(s) && |s| > 0 ==> r == Some(DigitsValue(s))
    ensures |s| > 1 && s[0] == '+' && AllDigits(s[1..]) ==> r == Some(DigitsValue(s[1..]))
    ensures |s| > 1 && s[0] == '-' && AllDigits(s[1..]) ==> r == Some(-(DigitsValue(s[1..]) as int))
  {
    if |s| > 0 && (s[0] == '+' || s[0] == '-') then
      var body := s[1..];
      if |body| > 0 && AllDigits(body) then
        var v: int := DigitsValue(body);
        Some(if s[0] == '-' then -v else v)
      else None
    else if |s| > 0 && AllDigits(s) then Some(DigitsValue(s))
    else None
  }

  /** Reading back the decimal rendering of `n` gives `n`. */
  lemma {:induction false} DigitsValueOfNatToString(n: nat)
    ensures DigitsValue(NatToString(n)) == n
    decreases n
  {
    if n >= 10 {
      var s := NatToString(n);
      var head := NatToString(n / 10);
      assert s[..|s| - 1] == head;
      DigitsValueOfNatToString(n / 10);
      assert DigitValue(DigitChar(n % 10)) == n % 10;
    } else {
      assert DigitValue(DigitChar(n)) == n;
    }
  }

  /** A digit string without a leading zero has a positive value. */
  lemma {:induction false} DigitsValuePositive(s: string)
    requires |s| > 0 && AllDigits(s) && s[0] != '0'
    ensures DigitsValue(s) > 0
  {
    if |s| > 1 {
      DigitsValuePositive(s[..|s| - 1]);
    }
  }

  /** The other direction: a digit string without a leading zero is the
      decimal rendering of its own value. */
  lemma {:induction false} NatToStringOfDigitsValue(s: string)
    requires |s| > 0 && AllDigits(s)
    requires |s| > 1 ==> s[0] != '0'
    ensures NatToString(DigitsValue(s)) == s
  {
    var d := DigitValue(s[|s| - 1]);
    assert DigitChar(d) == s[|s| - 1];
    if |s| == 1 {
      assert s == [s[0]];
    } else {
      var head := s[..|s| - 1];
      assert head[0] == s[0];
      NatToStringOfDigitsValue(head);
      DigitsValuePositive(head);
      var n := DigitsValue(s);
      assert n == 10 * DigitsValue(head) + d;
      assert n / 10 == DigitsValue(head) && n % 10 == d;
      assert s == head + [s[|s| - 1]];
    }
  }

  /** Round trip: `int(str(n)) == n`. */
  lemma ParseIntOfNatToString(n: nat)
    ensures ParseInt(NatToString(n)) == Some(n as int)
  {
    DigitsValueOfNatToString(n);
  }
}

=== FILE: timeframes.dfy ===
/** OHLCV timeframe handling: the interval table, its forward lookup when
    subscribing, the reverse lookup from an inbound kline table, the
    timeframe's length, and the alignment of candle timestamps. */
module Timeframes {
  import opened Wrappers
  import opened Text
  import opened Errors

  /** The configured interval table, unified timeframe to exchange token, in declaration order. */
  const Intervals: seq<(string, string)> := [
    ("1m", "1m"), ("3m", "3m"), ("5m", "5m"), ("15m", "15m"), ("30m", "30m"), ("45m", "45m"),
    ("1h", "1H"), ("2h", "2H"), ("3h", "3H"), ("4h", "4H"),
    ("1d", "1D"), ("1w", "1W"), ("1M", "1M")]

  const KlinePrefix := "kline"

  /** The value of the first entry with key `k` (a dictionary lookup). */
  function Lookup(table: seq<(string, string)>, k: string): (r: Option<string>)
    ensures r.Some? ==> exists i :: 0 <= i < |table| && table[i] == (k, r.value)
    ensures r.None? <==> forall i :: 0 <= i < |table| ==> table[i].0 != k
  {
    if |table| == 0 then None
    else if table[0].0 == k then Some(table[0].1)
    else
      var r := Lookup(table[1..], k);
      assert r.Some? ==> exists i :: 0 <= i < |table[1..]| && table[1..][i] == (k, r.value);
      r
  }

  /** `find_timeframe`: the key of the first entry whose value is `v`. */
  function ReverseLookup(table: seq<(string, string)>, v: string): (r: Option<string>)
    ensures r.Some? ==> exists i :: 0 <= i < |table| && table[i] == (r.value, v)
    ensures r.None? <==> forall i :: 0 <= i < |table| ==> table[i].1 != v
  {
    if |table| == 0 then None
    else if table[0].1 == v then Some(table[0].0)
    else
      var r := ReverseLookup(table[1..], v);
      assert r.Some? ==> exists i :: 0 <= i < |table[1..]| && table[1..][i] == (r.value, v);
      r
  }

  /** No two entries share a key. */
  ghost predicate KeysDistinct(table: seq<(string, string)>) {
    forall i, j :: 0 <= i < j < |table| ==> table[i].0 != table[j].0
  }

  /** No two entries share a value: the table is injective. */
  ghost predicate ValuesDistinct(table: seq<(string, string)>) {
    forall i, j :: 0 <= i < j < |table| ==> table[i].1 != table[j].1
  }

  lemma {:induction false} LookupAt(table: seq<(string, string)>, i: int)
    requires KeysDistinct(table) && 0 <= i < |table|
    ensures Lookup(table, table[i].0) == Some(table[i].1)
  {
    if i > 0 {
      assert table[0].0 != table[i].0;
      LookupAt(table[1..], i - 1);
    }
  }

  lemma {:induction false} ReverseLookupAt(table: seq<(string, string)>, i: int)
    requires ValuesDistinct(table) && 0 <= i < |table|
    ensures ReverseLookup(table, table[i].1) == Some(table[i].0)
  {
    if i > 0 {
      assert table[0].1 != table[i].1;
      ReverseLookupAt(table[1..], i - 1);
    }
  }

  /** The interval table is a bijection between its keys and its values. */
  lemma IntervalsInjective()
    ensures KeysDistinct(Intervals) && ValuesDistinct(Intervals)
  {
    forall i, j | 0 <= i < j < |Intervals|
      ensures Intervals[i].0 != Intervals[j].0
    {
      var a, b := Intervals[i].0, Intervals[j].0;
      assert |a| != |b| || a[0] != b[0] || a[|a| - 1] != b[|b| - 1];
    }
    forall i, j | 0 <= i < j < |Intervals|
      ensures Intervals[i].1 != Intervals[j].1
    {
      var a, b := Intervals[i].1, Intervals[j].1;
      assert |a| != |b| || a[0] != b[0] || a[|a| - 1] != b[|b| - 1];
    }
  }

  /** Every interval token is short and free of `/`. */
  lemma IntervalTokensPlain()
    ensures forall i :: 0 <= i < |Intervals| ==> |Intervals[i].1| < |KlinePrefix| && '/' !in Intervals[i].1
  {
  }

  /** The interval token of a configured timeframe is short and free of `/`. */
  lemma IntervalPlain(tf: string)
    requires IntervalOf(tf).Some?
    ensures var v := IntervalOf(tf).value; |v| < |KlinePrefix| && '/' !in v
  {
    var i :| 0 <= i < |Intervals| && Intervals[i] == (tf, IntervalOf(tf).value);
    IntervalTokensPlain();
  }

  /** `safe_string(timeframes, tf)`: the interval token of a unified timeframe. */
  function IntervalOf(tf: string): Option<string> {
    Lookup(Intervals, tf)
  }

  /** `find_timeframe`: the reverse lookup of an interval token in the
      configured table. It finds a timeframe exactly when some entry has the
      token, and the timeframe found maps forward to that token. */
  function FindTimeframe(interval: string): (r: Option<string>)
    ensures r.None? <==> forall i :: 0 <= i < |Intervals| ==> Intervals[i].1 != interval
    ensures r.Some? ==> IntervalOf(r.value) == Some(interval)
  {
    ReverseThenForward(interval);
    ReverseLookup(Intervals, interval)
  }

  /** A token found in reverse maps forward to itself. */
  lemma ReverseThenForward(interval: string)
    ensures var r := ReverseLookup(Intervals, interval);
            r.Some? ==> Lookup(Intervals, r.value) == Some(interval)
  {
    var r := ReverseLookup(Intervals, interval);
    if r.Some? {
      IntervalsInjective();
      var i :| 0 <= i < |Intervals| && Intervals[i] == (r.value, interval);
      LookupAt(Intervals, i);
    }
  }

  /** Forward and reverse lookups are inverse to each other, in both directions. */
  lemma FindTimeframeIff(tf: string, interval: string)
    ensures FindTimeframe(interval) == Some(tf) <==> IntervalOf(tf) == Some(interval)
  {
    IntervalsInjective();
    if FindTimeframe(interval) == Some(tf) {
      var i :| 0 <= i < |Intervals| && Intervals[i] == (tf, interval);
      LookupAt(Intervals, i);
    }
    if IntervalOf(tf) == Some(interval) {
      var i :| 0 <= i < |Intervals| && Intervals[i] == (tf, interval);
      ReverseLookupAt(Intervals, i);
    }
  }

  /** `watch_ohlcv`'s channel name `'kline' + interval`; an unknown
      timeframe leaves the interval `None` and the concatenation raises. */
  function KlineChannel(tf: string): (r: Result<string, ErrorKind>)
    ensures r.Ok? <==> IntervalOf(tf).Some?
    ensures r.Err? ==> r.error == TypeError
  {
    match IntervalOf(tf)
    case None => Err(TypeError)
    case Some(interval) => Ok(KlinePrefix + interval)
  }

  /** `handle_ohlcv`'s timeframe: the second `/`-segment of the table with
      every `kline` removed, looked up in reverse. A missing or empty
      segment raises on `None.replace`; an unknown token reaches `parse_timeframe`
      as `None`, which raises. */
  function TableTimeframe(table: string): (r: Result<string, ErrorKind>)
    ensures r == Err(AttributeError) <==> SafeAt(Split(table, '/'), 1).None?
    ensures r.Err? ==> r.error == AttributeError || r.error == TypeError
    ensures r.Ok? ==> IntervalOf(r.value).Some?
    ensures SafeAt(Split(table, '/'), 1).Some? ==>
              var interval := RemoveAll(SafeAt(Split(table, '/'), 1).value, KlinePrefix);
              && (r == Err(TypeError) <==> FindTimeframe(interval).None?)
              && (r.Ok? ==> IntervalOf(r.value) == Some(interval))
  {
    match SafeAt(Split(table, '/'), 1)
    case None => Err(AttributeError)
    case Some(name) =>
      match FindTimeframe(RemoveAll(name, KlinePrefix))
      case None => Err(TypeError)
      case Some(tf) => Ok(tf)
  }

  /** Round trip: the kline table a subscription to timeframe `tf` produces,
      `t/kline<interval>`, is read back as `tf`. */
  lemma KlineTableRoundTrip(t: string, tf: string)
    requires '/' !in t
    requires IntervalOf(tf).Some?
    ensures KlineChannel(tf).Ok?
    ensures TableTimeframe(t + "/" + KlineChannel(tf).value) == Ok(tf)
  {
    var interval := IntervalOf(tf).value;
    IntervalPlain(tf);
    var channel := KlinePrefix + interval;
    assert '/' !in channel;
    TwoSegments(t, channel);
    assert SafeAt(Split(t + "/" + channel, '/'), 1) == Some(channel);
    RemoveAllLeading(KlinePrefix, interval);
    NotContainsShort(interval, KlinePrefix);
    FindTimeframeIff(tf, interval);
  }

  /** Seconds per unit letter of a timeframe, as `parse_timeframe` scales them. */
  function UnitSeconds(unit: char): Option<nat> {
    match unit
    case 'y' => Some(60 * 60 * 24 * 365)
    case 'M' => Some(60 * 60 * 24 * 30)
    case 'w' => Some(60 * 60 * 24 * 7)
    case 'd' => Some(60 * 60 * 24)
    case 'h' => Some(60 * 60)
    case 'm' => Some(60)
    case 's' => Some(1)
    case _ => None
  }

  /** `parse_timeframe`: the leading integer times the seconds of the unit
      letter; `int()` of the prefix raises first, then an unknown unit. */
  function TimeframeSeconds(tf: string): (r: Result<int, ErrorKind>)
    ensures r.Ok? ==> |tf| >= 2 && UnitSeconds(tf[|tf| - 1]).Some?
    ensures r.Err? ==> r.error == ValueError || r.error == NotSupported
  {
    var amount := ParseInt(if |tf| == 0 then "" else tf[..|tf| - 1]);
    if amount.None? then Err(ValueError)
    else match UnitSeconds(tf[|tf| - 1])
      case None => Err(NotSupported)
      case Some(scale) => Ok(amount.value * scale)
  }

  /** A timeframe written as a decimal amount and a unit letter lasts the
      amount times the unit's seconds; an unknown unit letter is not supported. */
  lemma TimeframeSecondsOfParts(n: nat, unit: char)
    ensures TimeframeSeconds(NatToString(n) + [unit])
            == if UnitSeconds(unit).Some? then Ok(n * UnitSeconds(unit).value) else Err(NotSupported)
  {
    var tf := NatToString(n) + [unit];
    assert tf[..|tf| - 1] == NatToString(n);
    ParseIntOfNatToString(n);
  }

  /** Every configured timeframe has a positive length. */
  lemma IntervalDurationsPositive(tf: string)
    requires IntervalOf(tf).Some?
    ensures TimeframeSeconds(tf).Ok? && TimeframeSeconds(tf).value > 0
  {
    var i :| 0 <= i < |Intervals| && Intervals[i] == (tf, IntervalOf(tf).value);
    DurationPositiveAt(i);
  }

  /** The `i`-th configured timeframe has a positive length. */
  lemma DurationPositiveAt(i: int)
    requires 0 <= i < |Intervals|
    ensures TimeframeSeconds(Intervals[i].0).Ok? && TimeframeSeconds(Intervals[i].0).value > 0
  {
    AmountAndUnit(i);
    WellFormedTimeframeSeconds(Intervals[i].0);
  }

  /** A decimal amount without leading zero followed by a known unit letter has a positive length. */
  lemma WellFormedTimeframeSeconds(tf: string)
    requires |tf| >= 2 && AllDigits(tf[..|tf| - 1]) && tf[0] != '0'
    requires UnitSeconds(tf[|tf| - 1]).Some? && UnitSeconds(tf[|tf| - 1]).value > 0
    ensures TimeframeSeconds(tf).Ok? && TimeframeSeconds(tf).value > 0
  {
    var amount := tf[..|tf| - 1];
    DigitsValuePositive(amount);
    assert ParseInt(amount) == Some(DigitsValue(amount) as int);
  }

  /** Each configured timeframe is a decimal amount without leading zero followed by a unit letter. */
  lemma AmountAndUnit(i: int)
    requires 0 <= i < |Intervals|
    ensures var tf := Intervals[i].0;
            && 2 <= |tf| <= 3
            && AllDigits(tf[..|tf| - 1]) && tf[0] != '0'
            && UnitSeconds(tf[|tf| - 1]).Some? && UnitSeconds(tf[|tf| - 1]).value > 0
  {
  }

  /** The one-minute timeframe lasts sixty seconds. */
  lemma OneMinuteIsSixtySeconds()
    ensures TimeframeSeconds("1m") == Ok(60)
  {
    TimeframeSecondsOfParts(1, 'm');
    assert NatToString(1) + ['m'] == "1m";
  }

  /** Python's `int(a / b)` for an integer `a` and a positive `b`: true
      division, then truncation toward zero. */
  function TruncDiv(a: int, b: int): int
    requires b > 0
  {
    if a >= 0 then a / b else -((-a) / b)
  }

  /** A non-zero multiple of `d` is at least `d` away from zero. */
  lemma MultipleOutsideBucket(k: int, d: int)
    requires d > 0
    ensures k >= 1 ==> k * d >= d
    ensures k <= -1 ==> k * d <= -d
  {
  }

  /** Dividing a multiple of `d` by `d` is exact. */
  lemma MultipleDivides(q: int, d: int)
    requires d > 0
    ensures (q * d) % d == 0 && (q * d) / d == q
  {
    var a := q * d;
    var k := q - a / d;
    assert k * d == a % d;
    MultipleOutsideBucket(k, d);
  }

  /** A non-negative `a` lies in the bucket of its quotient. */
  lemma QuotientBounds(a: int, d: int)
    requires d > 0 && a >= 0
    ensures 0 <= (a / d) * d <= a < (a / d) * d + d
  {
    assert a == (a / d) * d + a % d;
  }

  /** `int(ts / d) * d`: the candle timestamp snapped to its bucket. A
      non-negative timestamp moves down to the largest multiple of `d` not
      above it; a negative one moves up toward zero. */
  function AlignDown(ts: int, d: int): (r: int)
    requires d > 0
    ensures r % d == 0
    ensures ts >= 0 ==> 0 <= r <= ts < r + d
    ensures ts < 0 ==> r - d < ts <= r <= 0
  {
    var q := TruncDiv(ts, d);
    MultipleDivides(q, d);
    if ts >= 0 then QuotientBounds(ts, d); q * d
    else QuotientBounds(-ts, d); assert q * d == -(((-ts) / d) * d); q * d
  }

  /** For non-negative timestamps the bucket is the only multiple of `d` in `(ts - d, ts]`. */
  lemma AlignDownUnique(ts: int, d: int, m: int)
    requires d > 0 && ts >= 0
    requires m % d == 0 && ts - d < m <= ts
    ensures m == AlignDown(ts, d)
  {
    var r := AlignDown(ts, d);
    var q := m / d;
    var p := r / d;
    assert m == q * d + m % d;
    assert r == p * d + r % d;
    assert (q - p) * d == m - r;
    MultipleOutsideBucket(q - p, d);
  }

  /** Re-aligning an aligned timestamp leaves it where it is. */
  lemma AlignDownIdempotent(ts: int, d: int)
    requires d > 0
    ensures AlignDown(AlignDown(ts, d), d) == AlignDown(ts, d)
  {
    var r := AlignDown(ts, d);
    var q := TruncDiv(ts, d);
    MultipleDivides(q, d);
    if r >= 0 {
      assert TruncDiv(r, d) == q;
    } else {
      MultipleDivides(-q, d);
      assert -r == (-q) * d;
      assert TruncDiv(r, d) == q;
    }
  }
}

=== FILE: watchers.dfy ===
/** The public entry points: each `watch_*` call resolves the market,
    derives a subscription hash from the market type, channel and exchange
    id, and registers it on the connection; the private channel first logs
    in and subscribes only once the login is acknowledged. */
module Watchers {
  import opened Wrappers
  import opened Text
  import opened Errors
  import opened Markets
  import opened Config
  import opened Connection
  import opened Router
  import opened Timeframes
  import opened OrderBooks
  import opened Handlers

  /** The public subscription hash `type/channel:id`. */
  function PublicHash(m: Market, channel: string): (h: string)
    ensures m.marketType + "/" <= h
    ensures |h| == |m.marketType| + |channel| + |m.id| + 2
  {
    m.marketType + "/" + channel + ":" + m.id
  }

  /** The private subscription hash `channel:id`. */
  function PrivateHash(channel: string, m: Market): (h: string)
    ensures channel + ":" <= h
    ensures |h| == |channel| + |m.id| + 1
  {
    channel + ":" + m.id
  }

  /** Distinct public subscriptions never share a hash: with no `/` in the
      market types and no `:` in the channels, the hash gives back the
      market type, the channel and the exchange id. */
  lemma PublicHashInjective(m1: Market, channel1: string, m2: Market, channel2: string)
    requires '/' !in m1.marketType && '/' !in m2.marketType
    requires ':' !in channel1 && ':' !in channel2
    requires PublicHash(m1, channel1) == PublicHash(m2, channel2)
    ensures m1.marketType == m2.marketType && channel1 == channel2 && m1.id == m2.id
  {
    assert PublicHash(m1, channel1) == m1.marketType + ['/'] + (channel1 + ":" + m1.id);
    assert PublicHash(m2, channel2) == m2.marketType + ['/'] + (channel2 + ":" + m2.id);
    HeadBeforeSeparator(m1.marketType, channel1 + ":" + m1.id, m2.marketType, channel2 + ":" + m2.id, '/');
    PrivateHashInjective(channel1, m1, channel2, m2);
  }

  /** Distinct private subscriptions never share a hash: with no `:` in the
      channels, the hash gives back the channel and the exchange id. */
  lemma PrivateHashInjective(channel1: string, m1: Market, channel2: string, m2: Market)
    requires ':' !in channel1 && ':' !in channel2
    requires PrivateHash(channel1, m1) == PrivateHash(channel2, m2)
    ensures channel1 == channel2 && m1.id == m2.id
  {
    assert PrivateHash(channel1, m1) == channel1 + [':'] + m1.id;
    assert PrivateHash(channel2, m2) == channel2 + [':'] + m2.id;
    HeadBeforeSeparator(channel1, m1.id, channel2, m2.id, ':');
  }

  /** `subscribe`: an unknown symbol raises `BadSymbol` before anything is
      sent; otherwise the hash is watched, and the request naming it is
      written unless the hash was already registered. */
  function Subscribe(c: Client, r: Registry, channel: string, symbol: string): (res: Result<Client, ErrorKind>)
    ensures res.Ok? <==> symbol in r.bySymbol
    ensures res.Err? ==> res.error == BadSymbol
    ensures res.Ok? ==>
              var h := PublicHash(r.bySymbol[symbol], channel);
              && h in res.value.subscriptions
              && res.value.subscriptions == c.subscriptions + {h}
              && res.value.authenticated == c.authenticated
              && res.value.sent == c.sent + (if h in c.subscriptions then [] else [SubscribeRequest([h])])
  {
    var m :- MarketOf(r, symbol);
    var h := PublicHash(m, channel);
    Ok(Watch(c, h, SubscribeRequest([h])))
  }

  /** A second subscription to the same channel and symbol writes nothing. */
  lemma SubscribeIdempotent(c: Client, r: Registry, channel: string, symbol: string)
    requires symbol in r.bySymbol
    ensures var c1 := Subscribe(c, r, channel, symbol).value;
            Subscribe(c1, r, channel, symbol) == Ok(c1)
  {
  }

  /** The hash splits back into market type, channel and exchange id, so
      distinct subscriptions never share a hash. */
  lemma PublicHashParses(m: Market, channel: string)
    requires '/' !in m.marketType && ':' !in m.marketType
    requires '/' !in channel && ':' !in channel
    requires ':' !in m.id
    ensures Split(PublicHash(m, channel), ':') == [m.marketType + "/" + channel, m.id]
    ensures Split(m.marketType + "/" + channel, '/') == [m.marketType, channel]
  {
    var table := m.marketType + "/" + channel;
    assert ':' !in table by {
      assert forall k :: 0 <= k < |table| ==> table[k] in m.marketType || table[k] == '/' || table[k] in channel;
    }
    SplitJoin([table, m.id], ':');
    SplitJoin([m.marketType, channel], '/');
  }

  /** `watch_trades`: the `trade` channel of the symbol's market. */
  function WatchTrades(c: Client, r: Registry, symbol: string): (res: Result<Client, ErrorKind>)
    ensures res.Ok? <==> symbol in r.bySymbol
    ensures res.Err? ==> res.error == BadSymbol
    ensures res.Ok? ==>
              var h := PublicHash(r.bySymbol[symbol], "trade");
              && res.value.subscriptions == c.subscriptions + {h}
              && res.value.authenticated == c.authenticated
              && res.value.sent == c.sent + (if h in c.subscriptions then [] else [SubscribeRequest([h])])
  {
    Subscribe(c, r, "trade", symbol)
  }

  /** `watch_ticker`: the `ticker` channel of the symbol's market. */
  function WatchTicker(c: Client, r: Registry, symbol: string): (res: Result<Client, ErrorKind>)
    ensures res.Ok? <==> symbol in r.bySymbol
    ensures res.Err? ==> res.error == BadSymbol
    ensures res.Ok? ==>
              var h := PublicHash(r.bySymbol[symbol], "ticker");
              && res.value.subscriptions == c.subscriptions + {h}
              && res.value.authenticated == c.authenticated
              && res.value.sent == c.sent + (if h in c.subscriptions then [] else [SubscribeRequest([h])])
  {
    Subscribe(c, r, "ticker", symbol)
  }

  /** `watch_order_book`: the depth channel comes from the options. */
  function WatchOrderBook(c: Client, r: Registry, o: Options, symbol: string): (res: Result<Client, ErrorKind>)
    ensures res.Ok? <==> symbol in r.bySymbol
    ensures res.Err? ==> res.error == BadSymbol
    ensures res.Ok? ==>
              var h := PublicHash(r.bySymbol[symbol], OrderBookChannel(o));
              && res.value.subscriptions == c.subscriptions + {h}
              && res.value.authenticated == c.authenticated
              && res.value.sent == c.sent + (if h in c.subscriptions then [] else [SubscribeRequest([h])])
  {
    Subscribe(c, r, OrderBookChannel(o), symbol)
  }

  /** `watch_ohlcv`: the symbol is resolved first, then the timeframe's
      interval; an unknown timeframe raises on `'kline' + None`. */
  function WatchOhlcv(c: Client, r: Registry, symbol: string, tf: string): (res: Result<Client, ErrorKind>)
    ensures symbol !in r.bySymbol ==> res == Err(BadSymbol)
    ensures symbol in r.bySymbol && IntervalOf(tf).None? ==> res == Err(TypeError)
    ensures res.Ok? <==> symbol in r.bySymbol && IntervalOf(tf).Some?
    ensures res.Ok? ==>
              var h := PublicHash(r.bySymbol[symbol], KlinePrefix + IntervalOf(tf).value);
              && res.value.subscriptions == c.subscriptions + {h}
              && res.value.authenticated == c.authenticated
              && res.value.sent == c.sent + (if h in c.subscriptions then [] else [SubscribeRequest([h])])
  {
    var _ :- MarketOf(r, symbol);
    var channel :- KlineChannel(tf);
    Subscribe(c, r, channel, symbol)
  }

  /** Every trade of a frame on a subscribed table resolves exactly the hash
      its `watch_trades` registered; a market with an empty exchange id
      fails any non-empty frame, since `safe_string` reads the id as missing. */
  lemma TradeKeysMatchSubscription(c: Client, r: Registry, symbol: string,
                                   trades: map<string, Cache<Trade>>, o: Options, data: seq<Trade>)
    requires symbol in r.bySymbol
    requires forall i :: 0 <= i < |data| ==> data[i].marketId == Some(r.bySymbol[symbol].id)
    ensures var m := r.bySymbol[symbol];
            var res := HandleTrades(trades, o, m.marketType + "/" + "trade", data);
            var keys := res.resolved;
            && WatchTrades(c, r, symbol).Ok?
            && (res.error.None? <==> m.id != "" || |data| == 0)
            && (m.id != "" ==>
                  forall i :: 0 <= i < |data| ==> keys[i] == PublicHash(m, "trade") && keys[i] in WatchTrades(c, r, symbol).value.subscriptions)
  {
    if |data| > 0 && r.bySymbol[symbol].id == "" {
      assert SafeString(data[0].marketId).None?;
    }
  }

  /** Every candle of a frame on the subscribed kline table resolves the hash
      its `watch_ohlcv` registered, and the frame is read back as the
      subscribed timeframe; a market with an empty exchange id fails any
      non-empty frame. */
  lemma KlineKeysMatchSubscription(c: Client, r: Registry, symbol: string, tf: string,
                                   ohlcvs: OhlcvStore, o: Options, data: seq<KlineRecord>)
    requires symbol in r.bySymbol && '/' !in r.bySymbol[symbol].marketType
    requires IntervalOf(tf).Some?
    requires forall i :: 0 <= i < |data| ==> data[i].marketId == Some(r.bySymbol[symbol].id)
    ensures var m := r.bySymbol[symbol];
            var channel := KlinePrefix + IntervalOf(tf).value;
            var table := m.marketType + "/" + channel;
            && WatchOhlcv(c, r, symbol, tf).Ok?
            && TableTimeframe(table) == Ok(tf)
            && (HandleOhlcv(ohlcvs, r, o, table, data).error.None? <==> m.id != "" || |data| == 0)
            && (m.id != "" ==>
                  forall i :: 0 <= i < |data| ==>
                    HandleOhlcv(ohlcvs, r, o, table, data).resolved[i] == PublicHash(m, channel))
  {
    KlineTableRoundTrip(r.bySymbol[symbol].marketType, tf);
    if |data| > 0 && r.bySymbol[symbol].id == "" {
      assert SafeString(data[0].marketId).None?;
    }
  }

  /** The described options subscribe to `depth5`, whose frames carry depth limit 5. */
  lemma DescribedDepthIsFive(t: string)
    requires '/' !in t
    ensures OrderBookChannel(Described) == "depth5"
    ensures DepthLimit(t + "/" + OrderBookChannel(Described)) == Ok(5)
  {
    DepthLimitOfSuffix(t, 5);
    assert NatToString(5) == "5";
    assert DepthPrefix + NatToString(5) == "depth5";
  }

  /** Without a configured depth, or with an empty one, the channel is
      `depth400`, whose frames carry depth limit 400. */
  lemma UnsetDepthIsFourHundred(t: string, o: Options)
    requires '/' !in t && SafeString(o.orderBookDepth).None?
    ensures OrderBookChannel(o) == "depth400"
    ensures DepthLimit(t + "/" + OrderBookChannel(o)) == Ok(400)
  {
    FourHundredDigits();
    DepthLimitOfSuffix(t, 400);
  }

  lemma FourHundredDigits()
    ensures DepthPrefix + NatToString(400) == "depth400"
  {
    assert NatToString(4) == "4";
    assert NatToString(40) == NatToString(4) + [DigitChar(0)] == "40";
    assert NatToString(400) == NatToString(40) + [DigitChar(0)] == "400";
  }

  /** Where a private subscription stands after its login was asked for. */
  datatype PrivateOutcome =
    | Subscribed(client: Client)
    | Waiting(client: Client)
    | Failed(client: Client, error: ErrorKind)

  /** `subscribe_private`: the market is resolved, then `authenticate` is
      awaited; `reply` is the frame the connection delivers while the login
      is pending. Only an acknowledged login lets the subscription be
      watched; a rejected one raises its error and nothing is subscribed. */
  function SubscribePrivate(c: Client, r: Registry, creds: Credentials, nowMs: nat, hmac: (string, string) -> string,
                            channel: string, symbol: string, reply: Frame, exact: ExactTable, broad: BroadTable)
    : (res: PrivateOutcome)
    ensures symbol !in r.bySymbol ==> res == Failed(c, BadSymbol)
    ensures res.Subscribed? ==>
              && symbol in r.bySymbol
              && res.client.authenticated == Resolved
              && PrivateHash(channel, r.bySymbol[symbol]) in res.client.subscriptions
    ensures !res.Subscribed? ==> forall h :: h in res.client.subscriptions && h !in c.subscriptions ==> h == LoginHash
  {
    match MarketOf(r, symbol)
    case Err(e) => Failed(c, e)
    case Ok(m) =>
      var c1 := AuthenticateNow(c, creds, nowMs, hmac);
      var c2 := if c1.authenticated.Pending? then HandleMessage(c1, reply, exact, broad).0 else c1;
      match c2.authenticated
      case Resolved =>
        var h := PrivateHash(channel, m);
        Subscribed(Watch(c2, h, SubscribeRequest([h])))
      case Rejected(e) => Failed(c2, e)
      case _ => Waiting(c2)
  }

  /** On a connection with no login yet, an acknowledged login is written
      before the subscription request: the two frames go out in that order. */
  lemma LoginPrecedesPrivateSubscription(c: Client, r: Registry, creds: Credentials, nowMs: nat,
                                         hmac: (string, string) -> string, channel: string, symbol: string,
                                         reply: Frame, exact: ExactTable, broad: BroadTable)
    requires LoginHash !in c.subscriptions && symbol in r.bySymbol
    requires PrivateHash(channel, r.bySymbol[symbol]) !in c.subscriptions
    requires PrivateHash(channel, r.bySymbol[symbol]) != LoginHash
    requires ErrorGate(AuthenticateNow(c, creds, nowMs, hmac), reply, exact, broad).proceed
    requires Classify(reply.table, reply.event) == Dispatch(AuthenticateHandler)
    ensures var res := SubscribePrivate(c, r, creds, nowMs, hmac, channel, symbol, reply, exact, broad);
            var h := PrivateHash(channel, r.bySymbol[symbol]);
            && res.Subscribed?
            && |res.client.sent| == |c.sent| + 2
            && res.client.sent[..|c.sent|] == c.sent
            && res.client.sent[|c.sent|].LoginRequest?
            && res.client.sent[|c.sent| + 1] == SubscribeRequest([h])
  {
  }

  /** A login rejected with an authentication error fails the private
      subscription with that error: no subscription request is written and
      the `login` entry is purged so a later call logs in again. */
  lemma RejectedLoginSubscribesNothing(c: Client, r: Registry, creds: Credentials, nowMs: nat,
                                       hmac: (string, string) -> string, channel: string, symbol: string,
                                       reply: Frame, exact: ExactTable, broad: BroadTable)
    requires LoginHash !in c.subscriptions && symbol in r.bySymbol
    requires reply.errorCode.Some?
    requires var k := ClassifyFrame(exact, broad, reply.errorCode.value, reply.message);
             k.Some? && k.value.isAuthentication
    ensures var res := SubscribePrivate(c, r, creds, nowMs, hmac, channel, symbol, reply, exact, broad);
            && res.Failed?
            && res.error == ClassifyFrame(exact, broad, reply.errorCode.value, reply.message).value
            && res.client.subscriptions == c.subscriptions
            && forall k :: |c.sent| <= k < |res.client.sent| ==> res.client.sent[k].LoginRequest?
  {
  }

  /** `watch_orders`: a missing symbol raises `ArgumentsRequired`, an
      unknown one `BadSymbol`, a non-spot market `ArgumentsRequired`; only
      then is the private `spot/user/order` channel subscribed. */
  function WatchOrders(c: Client, r: Registry, creds: Credentials, nowMs: nat, hmac: (string, string) -> string,
                       symbol: Option<string>, reply: Frame, exact: ExactTable, broad: BroadTable)
    : (res: PrivateOutcome)
    ensures symbol.None? ==> res == Failed(c, ArgumentsRequired)
    ensures symbol.Some? && symbol.value !in r.bySymbol ==> res == Failed(c, BadSymbol)
    ensures symbol.Some? && symbol.value in r.bySymbol && r.bySymbol[symbol.value].marketType != SpotType ==>
              res == Failed(c, ArgumentsRequired)
    ensures res.Subscribed? ==>
              && symbol.Some? && symbol.value in r.bySymbol
              && r.bySymbol[symbol.value].marketType == SpotType
              && (Consistent(r) ==> PrivateHash(OrdersChannel, r.bySymbol[symbol.value]) in res.client.subscriptions)
  {
    match symbol
    case None => Failed(c, ArgumentsRequired)
    case Some(s) =>
      match MarketOf(r, s)
      case Err(e) => Failed(c, e)
      case Ok(m) =>
        if m.marketType != SpotType then Failed(c, ArgumentsRequired)
        else SubscribePrivate(c, r, creds, nowMs, hmac, OrdersChannel, m.symbol, reply, exact, broad)
  }

  /** The only market type `watch_orders` accepts. */
  const SpotType := "spot"

  /** The private channel of order updates, `spot/user/order`. */
  const OrdersChannel := SpotType + "/user/order"

  /** The private order table reaches the orders handler. */
  lemma OrdersTableRoutes(ev: Option<string>)
    ensures Classify(Some(OrdersChannel), ev) == Dispatch(OrdersHandler)
  {
    assert '/' !in SpotType;
    PrivateOrderTableRoutes(SpotType, ev);
  }

  /** Each order on the watched market resolves the hash `watch_orders` registered. */
  lemma OrderKeysMatchSubscription(r: Registry, symbol: string,
                                   orders: Option<Cache<Order>>, o: Options, data: seq<RawOrder>)
    requires Consistent(r) && symbol in r.bySymbol
    requires forall i :: 0 <= i < |data| ==> data[i].marketId == r.bySymbol[symbol].id
    ensures var res := HandleOrders(orders, r, o, OrdersChannel, data);
            && res.error.None?
            && forall i :: 0 <= i < |data| ==> res.resolved[i] == PrivateHash(OrdersChannel, r.bySymbol[symbol])
  {
    OrderKeysMatchMarketIds(orders, r, o, OrdersChannel, data);
  }
}

=== FILE: wrappers.dfy ===
/** Failure-compatible wrappers: `Option` for the source's `None`/`undefined`
    values and `Result` for operations that raise. */
module Wrappers {

  datatype Option<+T> = None | Some(value: T) {

    /** The value, or `default` when absent (the source's `safe_value(.., default)`). */
    function GetOr(default: T): T {
      match this
      case Some(v) => v
      case None => default
    }
  }

  datatype Result<+T, +E> = Ok(value: T) | Err(error: E) {

    predicate IsFailure() {
      Err?
    }

    function PropagateFailure<U>(): Result<U, E>
      requires Err?
    {
      Err(error)
    }

    function Extract(): T
      requires Ok?
    {
      value
    }
  }

  /** The elements of `xs` before the first one `key` finds nothing for. */
  function Identified<T, K>(xs: seq<T>, key: T -> Option<K>): (p: seq<T>)
    ensures |p| <= |xs| && p == xs[..|p|]
    ensures forall i :: 0 <= i < |p| ==> key(p[i]).Some?
    ensures |p| < |xs| ==> key(xs[|p|]).None?
    ensures |p| == |xs| <==> forall i :: 0 <= i < |xs| ==> key(xs[i]).Some?
  {
    if |xs| == 0 || key(xs[0]).None? then []
    else
      var rest := Identified(xs[1..], key);
      assert forall i :: 0 < i < |xs| ==> xs[i] == xs[1..][i - 1];
      [xs[0]] + rest
  }
}
